=== FILE: README.md ===
# Counter ledger of counter-app

A model of the persistence core of the Android counter app: `CounterRepository` and the two Room tables behind it.

A **counter** has:
- a name;
- a current total (`currentCount`);
- a default step (`lastIncrementAmount`).

It owns a list of **event logs**. Each log carries:
- the counter id;
- a timestamp;
- a signed `amountChanged`;
- the derived `resultingCount`, which is the running total up to and including that entry.

The repository operations are modelled as pure transitions of a database state `Store.Db`:
- `addCounter`
- `incrementCounter`
- `updateCounter`
- `deleteCounter`
- `undoLastIncrement`
- `updateLogAndRecalculate`
- `deleteLogAndRecalculate`

`Store.Db` holds both tables as maps keyed by primary key, plus the next auto-generated id of each.

The invariant the repository maintains is `Store.LedgerConsistent(db, counterId, asc)`. Here `asc` is a listing of the counter's entries in ascending timestamp order, as `getAllLogsForCounterAsc` returns it. The invariant requires:
- each `resultingCount` is the prefix sum of the amounts;
- the counter's `currentCount` is the last running total, or 0 when the counter has no entries.

The recalculation shared by amend and delete lives in `Ledger` and `Recalculation`. `Ledger.SortByTime` is a stable insertion sort, standing in for Kotlin's `sortBy`. `Ledger.Recalc` is the prefix-sum pass. `Ledger.RecalculateRunningCounts` is the same pass written as the source's loop.

SQL leaves open which of several entries with the same timestamp a query returns first. So the answers of the two queries involved are parameters of the operations:
- `getAllLogsForCounterAsc`: any list satisfying `Store.IsAscListing`;
- `getLatestLogForCounter`: any answer satisfying `Store.IsLatestAnswer`.

Every operation's contract and every preservation lemma is proved for all answers the DAO contract allows. `Repository.UpdateLogToSameValuesIsIdentity` is the exception: it is proved for the answer the counter is consistent with (see "## Left out"). The clock reading of `incrementCounter` is the parameter `now`.

`Scenarios` replays the three instrumented repository tests on the model, in a fresh database with a clock that ticks one millisecond per call. The increment and recalculation test and the delete test pass the snapshot read right after creation to every increment. So their replays run on the corrected `Repository.IncrementCounter`, which reads the stored total. With the source's increment, both tests already fail on the totals before any recalculation; see "## Findings" and `Scenarios.AsWrittenTestTotals`.

Modules:
- `Optional`, `Entities` (`entities.dfy`): the option type and the two records.
- `Ledger` (`ledger.dfy`): sums, running totals, the stable sort.
- `Recalculation` (`recalculation.dfy`): amend and delete on a fetched list.
- `Store` (`store.dfy`): tables, DAO contracts, the consistency predicate.
- `Repository` (`repository.dfy`): the operations.
- `Scenarios` (`scenarios.dfy`): the instrumented tests and the findings.

Behaviour the model keeps from the code:
- **Update or delete of an entry that is not found.** When the entry or the counter is not found, update and delete write nothing and report nothing, so the model has no error result.
- **Tie-break on equal timestamps.**
  - The re-sort is Kotlin's stable `sortBy` over the fetched list; there is no tie-break by id.
  - The fetched list's tie order is whatever the query returns.
- **Rows written back from a snapshot.** `incrementCounter` writes the snapshot's name with the new total and the amount as step; `undoLastIncrement` writes the snapshot's name and step with the new total. A stale snapshot therefore overwrites what is stored.
- **Append then undo.** This is guaranteed to restore the entry table and the counter's total only when the new entry's timestamp is strictly the latest. With a tie, the latest-entry query may pick an older entry; `Scenarios.UndoWithTiedTimestamps` shows the result.

## Model

| member | source | states |
|---|---|---|
| `Repository.AddCounter` | app/src/main/kotlin/com/example/counterapp/data/CounterRepository.kt:14-16 | The new counter sits under the next free id, with the given name, a total of 0 and the given default step. No entry is added, every other counter is unchanged, and on a well-formed database exactly that one key is added. |
| `Repository.AddCounterKeepsInvariants` | app/src/main/kotlin/com/example/counterapp/data/Entities.kt:6-12 | After adding, the database is still well formed. The new counter is consistent with the empty listing, and every counter that was consistent with some listing stays consistent with it. |
| `Repository.IncrementCounterAsWritten` | app/src/main/kotlin/com/example/counterapp/data/CounterRepository.kt:18-31 | Increment as the source does it. Exactly one entry is added: the whole row under the next log id, for the snapshot's counter, stamped `now`, with the amount and with the snapshot's total plus the amount as its running total. An existing row is overwritten by the snapshot with that total and the amount as its step. Other counters and other counters' entries are unchanged. |
| `Repository.IncrementCounter` | app/src/main/kotlin/com/example/counterapp/data/CounterRepository.kt:18-31 | Increment computed from the stored total. An existing counter's row becomes the caller's snapshot with the stored total plus the amount and with the amount as its step, so the snapshot's name is written as in the source. The single new entry records the amount and the new total. Other counters and other counters' entries are unchanged. |
| `Repository.IncrementAgreesWhenSnapshotCurrent` | app/src/main/kotlin/com/example/counterapp/data/CounterRepository.kt:19-21 | When the caller's snapshot shows the stored total, the as-written and corrected increments give the same state. |
| `Repository.IncrementKeepsWellFormed` | app/src/main/kotlin/com/example/counterapp/data/Daos.kt:35-36 | Inserting the new entry under a fresh auto-generated id keeps every row under its own id and below the next id. |
| `Repository.IncrementKeepsConsistency` | app/src/main/kotlin/com/example/counterapp/data/CounterRepository.kt:18-31 | A consistent counter incremented at a time no earlier than any of its entries is consistent with the old listing plus the new entry at the end. |
| `Repository.UndoLastIncrement` | app/src/main/kotlin/com/example/counterapp/data/CounterRepository.kt:44-52 | With no entries, nothing changes. Otherwise exactly one entry is deleted, and it is one of the counter's entries with the greatest timestamp. All remaining rows are untouched. An existing counter's row becomes the caller's snapshot with its total lowered by that amount. Other counters are unchanged, and well-formedness is kept. |
| `Repository.LatestIsLastOfListing` | app/src/main/kotlin/com/example/counterapp/data/Daos.kt:44-45 | The latest-entry query answers "none" exactly when the ascending listing is empty. When the listing's last timestamp is strictly greatest, the answer is that last entry. |
| `Repository.UndoKeepsConsistency` | app/src/main/kotlin/com/example/counterapp/data/CounterRepository.kt:44-52 | Undo on a current snapshot, with a unique latest timestamp, leaves the counter consistent with the listing minus its last entry. |
| `Repository.IncrementThenUndoRestores` | app/src/main/kotlin/com/example/counterapp/data/CounterRepository.kt:18-52 | Increment followed by undo on the re-read row gives back the entry table and the total exactly, and leaves other counters unchanged. The counter's row is the increment's snapshot (so its name) with the original total and the increment's amount as default step; the next log id has moved on. |
| `Repository.UpdateLogAndRecalculate` | app/src/main/kotlin/com/example/counterapp/data/CounterRepository.kt:54-77 | If the entry is not the counter's, or the counter is missing, the state is unchanged. Otherwise no row is added or removed, and other counters and their entries are unchanged. |
| `Repository.UpdateFrame` | app/src/main/kotlin/com/example/counterapp/data/Daos.kt:41-42 | Writing the recalculated list back leaves every other counter's entries exactly as they were. |
| `Repository.UpdateLogRecalculates` | app/src/main/kotlin/com/example/counterapp/data/CounterRepository.kt:59-74 | After an amendment the recalculated list is a valid ascending listing and the counter is consistent with it. Its total is the old sum with the entry's old amount replaced by the new one. |
| `Repository.UpdateLogEditsOnlyTarget` | app/src/main/kotlin/com/example/counterapp/data/CounterRepository.kt:59-62 | The amended entry has the new amount and timestamp. Every other entry keeps its counter, timestamp and amount. Only running totals change. |
| `Repository.UpdateLogToSameValuesIsIdentity` | app/src/main/kotlin/com/example/counterapp/data/CounterRepository.kt:54-77 | Amending an entry of a consistent counter to its own amount and timestamp leaves the whole database unchanged. |
| `Repository.DeleteLogAndRecalculate` | app/src/main/kotlin/com/example/counterapp/data/CounterRepository.kt:78-103 | If the entry is not the counter's, or the counter is missing, the state is unchanged. Otherwise exactly that entry's row disappears, and other counters and their entries are unchanged. |
| `Repository.DeleteFrame` | app/src/main/kotlin/com/example/counterapp/data/Daos.kt:59-64 | Deleting the entry and writing the remainder back leaves every other counter's entries exactly as they were. |
| `Repository.DeleteLogRecalculates` | app/src/main/kotlin/com/example/counterapp/data/CounterRepository.kt:82-98 | After a deletion the recalculated remainder is a valid ascending listing and the counter is consistent with it. Its total drops by exactly the deleted amount, so it is 0 when nothing remains. |
| `Repository.DeleteLogKeepsOthers` | app/src/main/kotlin/com/example/counterapp/data/CounterRepository.kt:82-90 | Every surviving entry keeps its counter, timestamp and amount. |
| `Repository.UpdateLogKeepsWellFormed` | app/src/main/kotlin/com/example/counterapp/data/Daos.kt:53-57 | An amendment, successful or not, keeps the database well formed. |
| `Repository.DeleteLogKeepsWellFormed` | app/src/main/kotlin/com/example/counterapp/data/Daos.kt:59-64 | A deletion, successful or not, keeps the database well formed. |
| `Repository.UpdateCounter` | app/src/main/kotlin/com/example/counterapp/data/CounterRepository.kt:33-35 | The row with the counter's id is replaced by the given counter, and only if it exists. Entries and other counters are untouched, and a well-formed database stays well formed. |
| `Repository.UpdateCounterKeepsConsistency` | app/src/main/kotlin/com/example/counterapp/data/Daos.kt:17-18 | A whole-row update that keeps the stored total keeps the counter consistent. |
| `Repository.DeleteCounter` | app/src/main/kotlin/com/example/counterapp/data/CounterRepository.kt:37-40 | Afterwards the counter is gone and no entry names it. An entry survives exactly when it belongs to another counter. Surviving rows and counters are unchanged. |
| `Repository.DeleteCounterKeepsOthers` | app/src/main/kotlin/com/example/counterapp/data/Daos.kt:50-51 | The cascade keeps the database well formed and every other counter consistent with its listing. |
| `Ledger.Recalc` | app/src/main/kotlin/com/example/counterapp/data/CounterRepository.kt:65-69 | The recomputed list has the same entries in the same order with only running totals changed. The running totals are the prefix sums, and the last one is the sum of all amounts. |
| `Ledger.RecalculateRunningCounts` | app/src/main/kotlin/com/example/counterapp/data/CounterRepository.kt:86-90 | The source's accumulating loop yields exactly the prefix-sum recomputation, and its final `runningCount` is the sum of the amounts and the last running total. |
| `Ledger.RecalcOfConsistentIsIdentity` | app/src/main/kotlin/com/example/counterapp/data/CounterRepository.kt:65-69 | Recomputing a list whose running totals already hold changes nothing. |
| `Ledger.FinalCountIsSum` | app/src/main/kotlin/com/example/counterapp/data/Entities.kt:14-21 | When the running totals hold, the last one equals the sum of all amounts, or 0 for no entries. |
| `Ledger.RunningTotalsAppend` | app/src/main/kotlin/com/example/counterapp/data/CounterRepository.kt:19-28 | Appending an entry whose running total is the previous total plus its amount keeps the running totals correct. |
| `Ledger.FinalCountDropLast` | app/src/main/kotlin/com/example/counterapp/data/CounterRepository.kt:47-50 | Dropping the last entry keeps the running totals correct and lowers the last total by exactly that entry's amount. |
| `Ledger.InsertByTime` | app/src/main/kotlin/com/example/counterapp/data/CounterRepository.kt:62 | Inserting one entry into a timestamp-sorted list gives a sorted permutation of the list plus that entry. |
| `Ledger.SortByTime` | app/src/main/kotlin/com/example/counterapp/data/CounterRepository.kt:62 | The sort returns a permutation of its input in ascending timestamp order. |
| `Ledger.SortByTimeStable` | app/src/main/kotlin/com/example/counterapp/data/CounterRepository.kt:62 | For every timestamp, the ids carrying it appear in the same relative order before and after the sort. |
| `Ledger.SortByTimeSum` | app/src/main/kotlin/com/example/counterapp/data/CounterRepository.kt:62 | Sorting does not change the sum of the amounts. |
| `Ledger.SortOfSortedIsIdentity` | app/src/main/kotlin/com/example/counterapp/data/CounterRepository.kt:62 | Sorting an already sorted list returns it unchanged. |
| `Ledger.StrictlySortedUnique` | app/src/main/kotlin/com/example/counterapp/data/Daos.kt:29-30 | Two strictly time-ordered lists with the same members are equal. |
| `Recalculation.IndexOfFirst` | app/src/main/kotlin/com/example/counterapp/data/CounterRepository.kt:56 | The result is absent exactly when no entry has the id. Otherwise it is the first position holding that id. |
| `Recalculation.UpdateListing` | app/src/main/kotlin/com/example/counterapp/data/CounterRepository.kt:55-69 | The amendment fails exactly when the id is not in the list. Otherwise the result has the same length, is sorted by timestamp and carries correct running totals. |
| `Recalculation.UpdateListingIds` | app/src/main/kotlin/com/example/counterapp/data/CounterRepository.kt:59-62 | Amending keeps exactly the same ids, each once. |
| `Recalculation.UpdateListingEntries` | app/src/main/kotlin/com/example/counterapp/data/CounterRepository.kt:59 | In the amended list, the target carries the new amount and timestamp, and every other entry carries its old values. |
| `Recalculation.UpdateListingTotal` | app/src/main/kotlin/com/example/counterapp/data/CounterRepository.kt:65-74 | The amended list's final total is the old sum with the target's old amount replaced by the new one. |
| `Recalculation.UpdateListingStable` | app/src/main/kotlin/com/example/counterapp/data/CounterRepository.kt:59-62 | For every timestamp, entries sharing it after the amendment keep the relative order they had in the fetched list, with the amended entry at its old place. |
| `Recalculation.UpdateToSameValuesIsIdentity` | app/src/main/kotlin/com/example/counterapp/data/CounterRepository.kt:59-69 | Amending an entry of a consistent list to its own values returns the list unchanged. |
| `Recalculation.SumAmountsReplace` | app/src/main/kotlin/com/example/counterapp/data/CounterRepository.kt:59 | Replacing one entry changes the sum of amounts by exactly the difference of the two amounts. |
| `Recalculation.RemoveAt` | app/src/main/kotlin/com/example/counterapp/data/CounterRepository.kt:83 | `removeAt` shortens the list by one and keeps every other entry in its order. |
| `Recalculation.DeleteListing` | app/src/main/kotlin/com/example/counterapp/data/CounterRepository.kt:79-90 | The deletion fails exactly when the id is not in the list. Otherwise it yields the first entry with that id and a remainder that keeps the other entries' values in order, with correct running totals. The final total is the old sum minus the removed amount. |
| `Recalculation.DeleteListingContents` | app/src/main/kotlin/com/example/counterapp/data/CounterRepository.kt:82-83 | The remainder holds every id except the deleted one, each once, and stays in timestamp order. |
| `Store.UpdateRow` | app/src/main/kotlin/com/example/counterapp/data/Daos.kt:17-18 | `@Update` of a counter replaces only the row with the same id, and does nothing when there is none. |
| `Store.UpdateRows` | app/src/main/kotlin/com/example/counterapp/data/Daos.kt:41-42 | `@Update` of a list adds no keys. Each listed row with distinct ids replaces its stored row, and unlisted rows stay. |
| `Store.AscListingExists` | app/src/main/kotlin/com/example/counterapp/data/Daos.kt:29-30 | Every table admits at least one answer of the ascending query for every counter. |
| `Store.ListingIds` | app/src/main/kotlin/com/example/counterapp/data/Daos.kt:29-30 | An id appears in the ascending listing exactly when it is a stored entry of that counter. |
| `Store.ListingAppend` | app/src/main/kotlin/com/example/counterapp/data/Daos.kt:35-36 | Inserting a new row of the counter stamped no earlier than its entries extends the listing at the end. |
| `Store.ListingDropLast` | app/src/main/kotlin/com/example/counterapp/data/Daos.kt:47-48 | Deleting the row of the listing's last entry leaves the listing without that entry. |
| `Store.ListingRewritten` | app/src/main/kotlin/com/example/counterapp/data/Daos.kt:41-42 | Writing back a sorted, duplicate-free list of all the counter's rows makes that list the counter's listing. |
| `Store.ListingUnique` | app/src/main/kotlin/com/example/counterapp/data/Daos.kt:29-30 | When the counter's timestamps are pairwise distinct, the ascending query has only one answer. |
| `Store.ListingEmptyIffNoLogs` | app/src/main/kotlin/com/example/counterapp/data/Daos.kt:29-30 | The ascending listing is empty exactly when the counter has no entries. |
| `Store.LatestAnswerExists` | app/src/main/kotlin/com/example/counterapp/data/Daos.kt:44-45 | Every entry table keyed by its ids admits at least one answer of the latest-entry query for every counter, so the undo's precondition on the query can always be met. |
| `Scenarios.IncrementAndRecalculationTest` | app/src/androidTest/kotlin/com/example/counterapp/CounterRepositoryTest.kt:37-64 | Creating the counter and three corrected increments of 10, 20 and 5 with the creation snapshot reach the state the rest of the lemma describes. For any listing the query may return: the total is 35 with running totals 10, 30, 35. Amending the middle entry to +50 gives a total of 65 and running totals 10, 60, 65. |
| `Scenarios.ThreeIncrementsFromScratch` | app/src/androidTest/kotlin/com/example/counterapp/CounterRepositoryTest.kt:40-46 | Creating the counter and incrementing three times with the creation-time snapshot reaches the state with totals `a`, `a+b`, `a+b+c`, and that state is consistent. |
| `Scenarios.DeleteAndRecalculationTest` | app/src/androidTest/kotlin/com/example/counterapp/CounterRepositoryTest.kt:66-87 | Creating the counter and three corrected increments of 10, 20 and 30 reach the state the rest of the lemma describes. For any listing: the total is 60. Deleting the middle entry leaves two entries with running totals 10 and 40 and a total of 40. |
| `Scenarios.UndoTest` | app/src/androidTest/kotlin/com/example/counterapp/CounterRepositoryTest.kt:89-102 | The source's increment of `a` from a fresh counter reaches the one-entry state, whose total is `a`. Undo on the re-read row gives a total of 0 and an empty listing. |
| `Scenarios.StaleSnapshotLosesIncrements` | app/src/main/kotlin/com/example/counterapp/data/CounterRepository.kt:18-21 | Creating the counter and running the source's increment three times with the creation snapshot leaves the last amount as the total. For any non-zero first amount, no listing of the resulting entries is consistent. |
| `Scenarios.AsWrittenTestTotals` | app/src/androidTest/kotlin/com/example/counterapp/CounterRepositoryTest.kt:40-76 | With the source's increment and the tests' reused snapshot, the increments 10, 20, 5 leave a total of 5 where the test expects 35, and 10, 20, 30 leave 30 where it expects 60. |
| `Scenarios.UndoWithTiedTimestamps` | app/src/main/kotlin/com/example/counterapp/data/CounterRepository.kt:44-52 | Take two entries in the same millisecond of a consistent counter. The latest-entry query may answer with the first one, and undoing that leaves a state that no listing makes consistent. |
| `Scenarios.UpdateWithTiedTimestamps` | app/src/main/kotlin/com/example/counterapp/data/CounterRepository.kt:54-77 | Take two entries in the same millisecond of a counter consistent with the listing in insertion order. The ascending query may list them the other way round. Amending the first entry to its own amount and timestamp over that answer keeps the total, but renumbers the running totals in the swapped order, so the database changes whenever the first amount is not zero. |

## Left out

- The Compose UI, navigation and ViewModels are left out: they are presentation and coroutine plumbing.
- Import from text, daily sums and statistics are left out: they are referenced by the ViewModels but not defined in the core files.
- Import's bulk replace of a counter's entries is left out too: it is not part of `CounterRepository`.
- The `Flow` read queries (`allCounters`, `getLogsForCounter`) are left out: they are reads with no state change. `getCounterById` appears only as a map lookup.
- `System.currentTimeMillis` becomes the parameter `now`.
- Kotlin's 32-bit `Int` and 64-bit `Long` overflow of totals, amounts and timestamps is not modelled: `int` is unbounded.
- Room's `@Transaction` methods are modelled as single atomic transitions. Concurrency between coroutines is left out.
- The `REPLACE` conflict strategy of `insertCounter` is not modelled: with `autoGenerate` the id is always fresh, so no conflict arises.
- Counter names are not unique; the code does not enforce it either.
- Repository.UpdateLogToSameValuesIsIdentity: requires the query's answer to be the listing the counter is consistent with. With tied timestamps another permitted order makes the source renumber the tied entries, so amending to the same values is not the identity (see `Scenarios.UpdateWithTiedTimestamps`).
- Repository.UndoKeepsConsistency: requires the latest timestamp to be strictly greater than every other. With ties the source can break consistency (see `Scenarios.UndoWithTiedTimestamps`).
- Repository.UndoKeepsConsistency: also requires a snapshot that shows the stored total, because undo, like the source's, subtracts from the caller's snapshot.
- Repository.IncrementThenUndoRestores: requires the new entry's timestamp to be strictly later than the counter's earlier entries, for the same reason.
- Repository.IncrementKeepsConsistency: requires `now` to be no earlier than every existing entry, because a clock that goes backwards would put the new entry mid-list with a running total that is not a prefix sum.

## Findings

| source | as written | input that shows it | evidently intended | confidence | as-written member | corrected member |
|---|---|---|---|---|---|---|
| app/src/main/kotlin/com/example/counterapp/data/CounterRepository.kt:18-21 | `incrementCounter` computes the new total from the caller's `counter.currentCount` and writes the whole row back. A snapshot taken before earlier increments therefore overwrites them. | `testIncrementAndRecalculation`: a snapshot with total 0 is passed to three increments of 10, 20 and 5 (CounterRepositoryTest.kt:41-46). The stored total ends at 5, not 35, and the entries record 10, 20, 5, which are not running totals. `testDeleteAndRecalculation` does the same with 10, 20 and 30 (CounterRepositoryTest.kt:69-76): the total ends at 30, not 60. | The new total is the stored total plus the amount. | not executed | `Scenarios.StaleSnapshotLosesIncrements` and `Scenarios.AsWrittenTestTotals` (on `Repository.IncrementCounterAsWritten`) | `Repository.IncrementCounter`, with `Scenarios.ThreeIncrementsFromScratch` and `Repository.IncrementKeepsConsistency` |

=== FILE: entities.dfy ===
/** Optional values, standing in for Kotlin's nullable types and for
    `indexOfFirst` returning -1. */
module Optional {
  datatype Option<+T> = None | Some(value: T)
}

/** The two persisted records of the counter app: the `counters` and
    `event_logs` rows. Kotlin `Int` and `Long` fields are unbounded `int`s. */
module Entities {

  /** A named running total with its default increment step. */
  datatype Counter = Counter(
    id: int,
    name: string,
    currentCount: int,
    lastIncrementAmount: int
  )

  /** One timestamped change to a counter. `resultingCount` is derived: the
      counter's total just after this change, in timestamp order. */
  datatype EventLog = EventLog(
    id: int,
    counterId: int,
    timestamp: int,
    amountChanged: int,
    resultingCount: int
  )

}

=== FILE: ledger.dfy ===
/** The running-total arithmetic shared by every recalculation: prefix sums
    of `amountChanged`, the stable sort by timestamp, and the pass that
    rewrites each entry's `resultingCount`. Everything here works on one
    counter's list of entries. */
module Ledger {
  import opened Entities

  /** Sum of the signed amounts of `logs`. */
  function SumAmounts(logs: seq<EventLog>): int
  {
    if |logs| == 0 then 0
    else SumAmounts(logs[..|logs| - 1]) + logs[|logs| - 1].amountChanged
  }

  /** Entries ordered by ascending timestamp (equal timestamps allowed). */
  predicate SortedByTime(logs: seq<EventLog>)
  {
    forall i, j :: 0 <= i < j < |logs| ==> logs[i].timestamp <= logs[j].timestamp
  }

  /** Every entry's `resultingCount` is the sum of the amounts up to and
      including it. */
  predicate RunningTotalsHold(logs: seq<EventLog>)
  {
    forall i {:trigger logs[i].resultingCount} ::
      0 <= i < |logs| ==> logs[i].resultingCount == SumAmounts(logs[..i + 1])
  }

  /** The total a ledger shows: the last `resultingCount`, or 0 when empty. */
  function FinalCount(logs: seq<EventLog>): int
  {
    if |logs| == 0 then 0 else logs[|logs| - 1].resultingCount
  }

  /** Equal in every stored field except the derived `resultingCount`. */
  predicate SameEntry(a: EventLog, b: EventLog)
  {
    a.id == b.id && a.counterId == b.counterId
    && a.timestamp == b.timestamp && a.amountChanged == b.amountChanged
  }

  /** The ids occurring in `logs`. */
  function IdSet(logs: seq<EventLog>): set<int>
  {
    set i | 0 <= i < |logs| :: logs[i].id
  }

  /** No id occurs twice (ids are primary keys). */
  predicate DistinctIds(logs: seq<EventLog>)
  {
    forall i, j :: 0 <= i < j < |logs| ==> logs[i].id != logs[j].id
  }

  /** The ids of the entries stamped `t`, in list order. Two lists with the
      same `IdsAt` for every `t` order the entries of each timestamp alike,
      which is what a stable sort must keep. */
  function IdsAt(logs: seq<EventLog>, t: int): seq<int>
  {
    if |logs| == 0 then []
    else (if logs[0].timestamp == t then [logs[0].id] else []) + IdsAt(logs[1..], t)
  }

  lemma {:induction false} SumAmountsConcat(a: seq<EventLog>, b: seq<EventLog>)
    ensures SumAmounts(a + b) == SumAmounts(a) + SumAmounts(b)
    decreases |b|
  {
    if |b| > 0 {
      var b' := b[..|b| - 1];
      assert (a + b)[..|a + b| - 1] == a + b';
      SumAmountsConcat(a, b');
    } else {
      assert a + b == a;
    }
  }

  /** With consistent running totals the displayed total is the sum of all
      amounts. */
  lemma FinalCountIsSum(logs: seq<EventLog>)
    requires RunningTotalsHold(logs)
    ensures FinalCount(logs) == SumAmounts(logs)
  {
    if |logs| > 0 {
      assert logs[..|logs|] == logs;
    }
  }

  /** The prefix-sum pass of the repository (`runningCount += amountChanged`
      then `copy(resultingCount = runningCount)` over the sorted list). */
  function Recalc(logs: seq<EventLog>): (r: seq<EventLog>)
    ensures |r| == |logs|
    ensures forall i :: 0 <= i < |logs| ==> SameEntry(r[i], logs[i])
    ensures RunningTotalsHold(r)
    ensures FinalCount(r) == SumAmounts(logs)
  {
    if |logs| == 0 then []
    else
      var prefix := Recalc(logs[..|logs| - 1]);
      var last := logs[|logs| - 1];
      var r := prefix + [last.(resultingCount := FinalCount(prefix) + last.amountChanged)];
      SumSameEntries(prefix, logs[..|logs| - 1]);
      RunningTotalsAppend(prefix, r[|r| - 1]);
      r
  }

  /** Sums only look at amounts. */
  lemma {:induction false} SumSameEntries(a: seq<EventLog>, b: seq<EventLog>)
    requires |a| == |b|
    requires forall i :: 0 <= i < |a| ==> SameEntry(a[i], b[i])
    ensures SumAmounts(a) == SumAmounts(b)
    decreases |a|
  {
    if |a| > 0 {
      SumSameEntries(a[..|a| - 1], b[..|b| - 1]);
    }
  }

  /** Appending an entry whose `resultingCount` extends the last total by
      its own amount keeps the running totals consistent. */
  lemma RunningTotalsAppend(logs: seq<EventLog>, x: EventLog)
    requires RunningTotalsHold(logs)
    requires x.resultingCount == FinalCount(logs) + x.amountChanged
    ensures RunningTotalsHold(logs + [x])
    ensures FinalCount(logs + [x]) == SumAmounts(logs + [x])
  {
    var r := logs + [x];
    FinalCountIsSum(logs);
    assert r[..|r| - 1] == logs;
    forall i | 0 <= i < |r|
      ensures r[i].resultingCount == SumAmounts(r[..i + 1])
    {
      if i < |logs| {
        assert r[..i + 1] == logs[..i + 1];
      } else {
        assert r[..i + 1] == r;
      }
    }
    FinalCountIsSum(r);
  }

  /** Running totals are determined by the amounts: two consistent lists
      that agree on every stored field are equal. */
  lemma RunningTotalsDetermineCounts(a: seq<EventLog>, b: seq<EventLog>)
    requires |a| == |b|
    requires forall i :: 0 <= i < |a| ==> SameEntry(a[i], b[i])
    requires RunningTotalsHold(a) && RunningTotalsHold(b)
    ensures a == b
  {
    forall i | 0 <= i < |a|
      ensures a[i] == b[i]
    {
      var ap, bp := a[..i + 1], b[..i + 1];
      assert forall k :: 0 <= k < |ap| ==> ap[k] == a[k] && bp[k] == b[k];
      SumSameEntries(ap, bp);
      assert a[i].resultingCount == SumAmounts(ap);
      assert b[i].resultingCount == SumAmounts(bp);
    }
  }

  /** Recalculating a list whose running totals already hold changes
      nothing. */
  lemma RecalcOfConsistentIsIdentity(logs: seq<EventLog>)
    requires RunningTotalsHold(logs)
    ensures Recalc(logs) == logs
  {
    RunningTotalsDetermineCounts(Recalc(logs), logs);
  }

  /** The Kotlin loop itself: one pass accumulating `runningCount`, which
      afterwards holds the new total. */
  method RecalculateRunningCounts(logs: seq<EventLog>) returns (updated: seq<EventLog>, runningCount: int)
    ensures updated == Recalc(logs)
    ensures runningCount == SumAmounts(logs)
    ensures runningCount == FinalCount(updated)
  {
    updated := [];
    runningCount := 0;
    var i := 0;
    while i < |logs|
      invariant 0 <= i <= |logs|
      invariant updated == Recalc(logs[..i])
      invariant runningCount == SumAmounts(logs[..i])
    {
      assert logs[..i + 1][..i] == logs[..i];
      runningCount := runningCount + logs[i].amountChanged;
      updated := updated + [logs[i].(resultingCount := runningCount)];
      i := i + 1;
    }
    assert logs[..i] == logs;
  }

  /** Insert `x` into a sorted list before the first entry whose timestamp
      is not smaller, i.e. after every entry stamped strictly earlier. Run
      from the back of the input, this is a stable insertion sort. */
  function InsertByTime(x: EventLog, sorted: seq<EventLog>): (r: seq<EventLog>)
    requires SortedByTime(sorted)
    ensures |r| == |sorted| + 1
    ensures multiset(r) == multiset(sorted) + multiset{x}
    ensures r[0] == x || (|sorted| > 0 && r[0] == sorted[0])
    ensures SortedByTime(r)
  {
    if |sorted| == 0 || x.timestamp <= sorted[0].timestamp then
      ConsSorted(x, sorted);
      [x] + sorted
    else
      var rest := InsertByTime(x, sorted[1..]);
      assert sorted == [sorted[0]] + sorted[1..];
      ConsSorted(sorted[0], rest);
      [sorted[0]] + rest
  }

  /** Putting an entry no later than the head in front keeps a list sorted. */
  lemma ConsSorted(x: EventLog, logs: seq<EventLog>)
    requires SortedByTime(logs)
    requires |logs| == 0 || x.timestamp <= logs[0].timestamp
    ensures SortedByTime([x] + logs)
  {
    var r := [x] + logs;
    forall i, j | 0 <= i < j < |r|
      ensures r[i].timestamp <= r[j].timestamp
    {
      assert r[j] == logs[j - 1];
      if i > 0 {
        assert r[i] == logs[i - 1];
      } else {
        assert logs[0].timestamp <= logs[j - 1].timestamp;
      }
    }
  }

  lemma ConsIdSet(x: EventLog, logs: seq<EventLog>)
    ensures IdSet([x] + logs) == {x.id} + IdSet(logs)
  {
    var r := [x] + logs;
    forall id | id in IdSet(r)
      ensures id in {x.id} + IdSet(logs)
    {
      var i :| 0 <= i < |r| && r[i].id == id;
      if i > 0 {
        assert logs[i - 1].id == id;
      }
    }
    forall id | id in IdSet(logs)
      ensures id in IdSet(r)
    {
      var i :| 0 <= i < |logs| && logs[i].id == id;
      assert r[i + 1].id == id;
    }
    assert r[0].id == x.id;
  }

  lemma ConsDistinct(x: EventLog, logs: seq<EventLog>)
    ensures DistinctIds([x] + logs) <==> DistinctIds(logs) && x.id !in IdSet(logs)
  {
    if DistinctIds([x] + logs) {
      ConsDistinctSplits(x, logs);
    }
    if DistinctIds(logs) && x.id !in IdSet(logs) {
      ConsDistinctJoins(x, logs);
    }
  }

  lemma ConsDistinctSplits(x: EventLog, logs: seq<EventLog>)
    requires DistinctIds([x] + logs)
    ensures DistinctIds(logs) && x.id !in IdSet(logs)
  {
    var r := [x] + logs;
    forall i, j | 0 <= i < j < |logs|
      ensures logs[i].id != logs[j].id
    {
      assert logs[i] == r[i + 1] && logs[j] == r[j + 1];
    }
    forall i | 0 <= i < |logs|
      ensures logs[i].id != x.id
    {
      assert r[0] == x && r[i + 1] == logs[i];
    }
  }

  lemma ConsDistinctJoins(x: EventLog, logs: seq<EventLog>)
    requires DistinctIds(logs) && x.id !in IdSet(logs)
    ensures DistinctIds([x] + logs)
  {
    var r := [x] + logs;
    forall i, j | 0 <= i < j < |r|
      ensures r[i].id != r[j].id
    {
      if i == 0 {
        assert r[j] == logs[j - 1];
        assert logs[j - 1].id in IdSet(logs);
      } else {
        assert r[i] == logs[i - 1] && r[j] == logs[j - 1];
      }
    }
  }

  lemma {:induction false} InsertByTimeIds(x: EventLog, sorted: seq<EventLog>)
    requires SortedByTime(sorted)
    ensures IdSet(InsertByTime(x, sorted)) == IdSet(sorted) + {x.id}
    ensures DistinctIds(sorted) && x.id !in IdSet(sorted) ==> DistinctIds(InsertByTime(x, sorted))
    decreases |sorted|
  {
    if |sorted| == 0 || x.timestamp <= sorted[0].timestamp {
      ConsIdSet(x, sorted);
      ConsDistinct(x, sorted);
    } else {
      var rest := InsertByTime(x, sorted[1..]);
      assert sorted == [sorted[0]] + sorted[1..];
      InsertByTimeIds(x, sorted[1..]);
      ConsIdSet(sorted[0], rest);
      ConsIdSet(sorted[0], sorted[1..]);
      ConsDistinct(sorted[0], rest);
      ConsDistinct(sorted[0], sorted[1..]);
    }
  }

  lemma {:induction false} InsertByTimeSum(x: EventLog, sorted: seq<EventLog>)
    requires SortedByTime(sorted)
    ensures SumAmounts(InsertByTime(x, sorted)) == SumAmounts(sorted) + x.amountChanged
    decreases |sorted|
  {
    if |sorted| == 0 || x.timestamp <= sorted[0].timestamp {
      SumAmountsConcat([x], sorted);
    } else {
      var rest := InsertByTime(x, sorted[1..]);
      InsertByTimeSum(x, sorted[1..]);
      SumAmountsConcat([sorted[0]], rest);
      assert sorted == [sorted[0]] + sorted[1..];
      SumAmountsConcat([sorted[0]], sorted[1..]);
    }
  }

  /** Insertion keeps the relative order of every timestamp group and puts
      `x` first in its own group. */
  lemma {:induction false} InsertByTimeStable(x: EventLog, sorted: seq<EventLog>, t: int)
    requires SortedByTime(sorted)
    ensures IdsAt(InsertByTime(x, sorted), t) == (if x.timestamp == t then [x.id] else []) + IdsAt(sorted, t)
    decreases |sorted|
  {
    if |sorted| == 0 || x.timestamp <= sorted[0].timestamp {
      IdsAtCons(x, sorted, t);
    } else {
      var rest := InsertByTime(x, sorted[1..]);
      InsertByTimeStable(x, sorted[1..], t);
      IdsAtCons(sorted[0], rest, t);
      IdsAtCons(sorted[0], sorted[1..], t);
      assert sorted == [sorted[0]] + sorted[1..];
    }
  }

  /** `IdsAt` of a list with one entry put in front. */
  lemma IdsAtCons(y: EventLog, logs: seq<EventLog>, t: int)
    ensures IdsAt([y] + logs, t) == (if y.timestamp == t then [y.id] else []) + IdsAt(logs, t)
  {
    assert ([y] + logs)[1..] == logs;
  }

  /** Stable sort by ascending timestamp (Kotlin's `sortBy { it.timestamp }`). */
  function SortByTime(logs: seq<EventLog>): (r: seq<EventLog>)
    ensures |r| == |logs|
    ensures multiset(r) == multiset(logs)
    ensures SortedByTime(r)
  {
    if |logs| == 0 then []
    else
      assert logs == [logs[0]] + logs[1..];
      InsertByTime(logs[0], SortByTime(logs[1..]))
  }

  /** Sorting keeps the set of ids. */
  lemma {:induction false} SortByTimeIdSet(logs: seq<EventLog>)
    ensures IdSet(SortByTime(logs)) == IdSet(logs)
    decreases |logs|
  {
    if |logs| > 0 {
      SortByTimeIdSet(logs[1..]);
      InsertByTimeIds(logs[0], SortByTime(logs[1..]));
      IdSetHeadTail(logs);
    }
  }

  /** Sorting a list of distinct ids gives a list of distinct ids. */
  lemma {:induction false} SortByTimeDistinct(logs: seq<EventLog>)
    requires DistinctIds(logs)
    ensures DistinctIds(SortByTime(logs))
    decreases |logs|
  {
    if |logs| > 0 {
      IdSetHeadTail(logs);
      SortByTimeDistinct(logs[1..]);
      SortByTimeIdSet(logs[1..]);
      InsertByTimeIds(logs[0], SortByTime(logs[1..]));
    }
  }

  /** Splitting off the head: ids and distinctness. */
  lemma IdSetHeadTail(logs: seq<EventLog>)
    requires |logs| > 0
    ensures IdSet(logs) == {logs[0].id} + IdSet(logs[1..])
    ensures DistinctIds(logs) <==> DistinctIds(logs[1..]) && logs[0].id !in IdSet(logs[1..])
  {
    assert logs == [logs[0]] + logs[1..];
    ConsIdSet(logs[0], logs[1..]);
    ConsDistinct(logs[0], logs[1..]);
  }

  /** Splitting off the head: the sum. */
  lemma SumAmountsHeadTail(logs: seq<EventLog>)
    requires |logs| > 0
    ensures SumAmounts(logs) == logs[0].amountChanged + SumAmounts(logs[1..])
  {
    assert logs == [logs[0]] + logs[1..];
    SumAmountsConcat([logs[0]], logs[1..]);
    assert SumAmounts([logs[0]]) == logs[0].amountChanged by {
      assert [logs[0]][..0] == [];
    }
  }

  /** Sorting keeps the sum of the amounts. */
  lemma {:induction false} SortByTimeSum(logs: seq<EventLog>)
    ensures SumAmounts(SortByTime(logs)) == SumAmounts(logs)
    decreases |logs|
  {
    if |logs| > 0 {
      SortByTimeSum(logs[1..]);
      InsertByTimeSum(logs[0], SortByTime(logs[1..]));
      SumAmountsHeadTail(logs);
    }
  }

  /** The sort is stable: within each timestamp the input order survives. */
  lemma {:induction false} SortByTimeStable(logs: seq<EventLog>, t: int)
    ensures IdsAt(SortByTime(logs), t) == IdsAt(logs, t)
    decreases |logs|
  {
    if |logs| > 0 {
      SortByTimeStable(logs[1..], t);
      InsertByTimeStable(logs[0], SortByTime(logs[1..]), t);
    }
  }

  /** A list already in timestamp order is left exactly as it is. */
  lemma {:induction false} SortOfSortedIsIdentity(logs: seq<EventLog>)
    requires SortedByTime(logs)
    ensures SortByTime(logs) == logs
    decreases |logs|
  {
    if |logs| > 0 {
      SortOfSortedIsIdentity(logs[1..]);
      assert logs == [logs[0]] + logs[1..];
    }
  }

  /** Lists that differ only in `resultingCount` group their ids alike. */
  lemma {:induction false} IdsAtSameEntries(a: seq<EventLog>, b: seq<EventLog>, t: int)
    requires |a| == |b|
    requires forall i :: 0 <= i < |a| ==> SameEntry(a[i], b[i])
    ensures IdsAt(a, t) == IdsAt(b, t)
    decreases |a|
  {
    if |a| > 0 {
      IdsAtSameEntries(a[1..], b[1..], t);
    }
  }

  /** Consistent running totals survive cutting off the tail. */
  lemma RunningTotalsPrefix(logs: seq<EventLog>, k: nat)
    requires k <= |logs|
    requires RunningTotalsHold(logs)
    ensures RunningTotalsHold(logs[..k])
  {
    var p := logs[..k];
    forall i | 0 <= i < |p|
      ensures p[i].resultingCount == SumAmounts(p[..i + 1])
    {
      assert p[..i + 1] == logs[..i + 1];
      assert p[i] == logs[i];
    }
  }

  /** Dropping the last entry of a consistent list takes its amount off the
      final count. */
  lemma FinalCountDropLast(logs: seq<EventLog>)
    requires |logs| > 0
    requires RunningTotalsHold(logs)
    ensures RunningTotalsHold(logs[..|logs| - 1])
    ensures FinalCount(logs[..|logs| - 1]) == FinalCount(logs) - logs[|logs| - 1].amountChanged
  {
    var n := |logs|;
    var p := logs[..n - 1];
    RunningTotalsPrefix(logs, n - 1);
    FinalCountIsSum(logs);
    FinalCountIsSum(p);
    assert logs[..n] == logs;
  }

  /** Every entry of the merged list is the inserted one or came from the
      list it was inserted into. */
  lemma InsertByTimeMembers(x: EventLog, sorted: seq<EventLog>)
    requires SortedByTime(sorted)
    ensures var r := InsertByTime(x, sorted);
      forall i :: 0 <= i < |r| ==> r[i] == x || r[i] in sorted
  {
    var r := InsertByTime(x, sorted);
    forall i | 0 <= i < |r|
      ensures r[i] == x || r[i] in sorted
    {
      assert r[i] in multiset(r);
    }
  }

  /** Timestamps strictly increase along the list. */
  predicate StrictlySortedByTime(logs: seq<EventLog>)
  {
    forall i, j :: 0 <= i < j < |logs| ==> logs[i].timestamp < logs[j].timestamp
  }

  /** Two lists with strictly increasing timestamps and the same entries
      are the same list: ordering by distinct timestamps leaves no choice. */
  lemma {:induction false} StrictlySortedUnique(a: seq<EventLog>, b: seq<EventLog>)
    requires StrictlySortedByTime(a) && StrictlySortedByTime(b)
    requires forall x :: x in a <==> x in b
    ensures a == b
    decreases |a|
  {
    assert |a| > 0 ==> a[0] in b;
    assert |b| > 0 ==> b[0] in a;
    if |a| > 0 {
      StrictHeadsEqual(a, b);
      StrictTailsSameMembers(a, b);
      StrictlySortedUnique(a[1..], b[1..]);
      assert a == [a[0]] + a[1..];
      assert b == [b[0]] + b[1..];
    }
  }

  /** Both lists start with the earliest entry. */
  lemma StrictHeadsEqual(a: seq<EventLog>, b: seq<EventLog>)
    requires StrictlySortedByTime(a) && StrictlySortedByTime(b)
    requires |a| > 0 && |b| > 0
    requires a[0] in b && b[0] in a
    ensures a[0] == b[0]
  {
    var i :| 0 <= i < |a| && a[i] == b[0];
    var j :| 0 <= j < |b| && b[j] == a[0];
    assert i == 0;
  }

  /** With equal heads, the tails hold the same entries. */
  lemma StrictTailsSameMembers(a: seq<EventLog>, b: seq<EventLog>)
    requires StrictlySortedByTime(a) && StrictlySortedByTime(b)
    requires forall x :: x in a <==> x in b
    requires |a| > 0 && |b| > 0 && a[0] == b[0]
    ensures forall x :: x in a[1..] <==> x in b[1..]
  {
    forall x | x in a[1..]
      ensures x in b[1..]
    {
      var m :| 1 <= m < |a| && a[m] == x;
      assert x in b;
      var n :| 0 <= n < |b| && b[n] == x;
      assert n != 0;
      assert b[1..][n - 1] == x;
    }
    forall x | x in b[1..]
      ensures x in a[1..]
    {
      var n :| 1 <= n < |b| && b[n] == x;
      assert x in a;
      var m :| 0 <= m < |a| && a[m] == x;
      assert m != 0;
      assert a[1..][m - 1] == x;
    }
  }

  /** A list with distinct ids has as many ids as entries. */
  lemma {:induction false} DistinctIdsCount(logs: seq<EventLog>)
    requires DistinctIds(logs)
    ensures |IdSet(logs)| == |logs|
  {
    if |logs| > 0 {
      IdSetHeadTail(logs);
      DistinctIdsCount(logs[1..]);
    }
  }
}

=== FILE: recalculation.dfy ===
/** The two recalculating edits of a counter's history, on the list the
    ascending query returned: amend one entry, or remove one entry, then
    redo the running totals. The store-level operations in `Repository`
    wrap these. */
module Recalculation {
  import opened Optional
  import opened Entities
  import opened Ledger

  /** Position of the first entry with id `logId` (`indexOfFirst`; `None`
      stands for -1). */
  function IndexOfFirst(logs: seq<EventLog>, logId: int): (r: Option<nat>)
    ensures r.None? <==> logId !in IdSet(logs)
    ensures r.Some? ==> r.value < |logs| && logs[r.value].id == logId
    ensures r.Some? ==> forall i :: 0 <= i < r.value ==> logs[i].id != logId
  {
    if |logs| == 0 then None
    else if logs[0].id == logId then Some(0)
    else
      assert logs == [logs[0]] + logs[1..];
      ConsIdSet(logs[0], logs[1..]);
      match IndexOfFirst(logs[1..], logId)
      case None => None
      case Some(k) => Some(k + 1)
  }

  /** The entry with a new amount and timestamp (`copy(amountChanged = …,
      timestamp = …)`). */
  function Edited(log: EventLog, newAmount: int, newTimestamp: int): EventLog
  {
    log.(amountChanged := newAmount, timestamp := newTimestamp)
  }

  /** The list with its `k`-th entry edited in place. */
  function EditAt(logs: seq<EventLog>, k: nat, newAmount: int, newTimestamp: int): seq<EventLog>
    requires k < |logs|
  {
    logs[k := Edited(logs[k], newAmount, newTimestamp)]
  }

  /** Amend the entry `logId`: edit it in place, re-sort stably by
      timestamp, recompute the running totals. `None` when the id is not in
      the list (the source then writes nothing). */
  function UpdateListing(asc: seq<EventLog>, logId: int, newAmount: int, newTimestamp: int): (r: Option<seq<EventLog>>)
    ensures r.None? <==> logId !in IdSet(asc)
    ensures r.Some? ==> |r.value| == |asc|
    ensures r.Some? ==> SortedByTime(r.value) && RunningTotalsHold(r.value)
  {
    match IndexOfFirst(asc, logId)
    case None => None
    case Some(k) => Some(Recalc(SortByTime(EditAt(asc, k, newAmount, newTimestamp))))
  }

  /** Two lists whose ids agree position by position have the same id set
      and are distinct together. */
  lemma SameIdsPointwise(a: seq<EventLog>, b: seq<EventLog>)
    requires |a| == |b|
    requires forall i :: 0 <= i < |a| ==> a[i].id == b[i].id
    ensures IdSet(a) == IdSet(b)
    ensures DistinctIds(a) <==> DistinctIds(b)
  {
    forall id | id in IdSet(a)
      ensures id in IdSet(b)
    {
      var i :| 0 <= i < |a| && a[i].id == id;
      assert b[i].id == id;
    }
    forall id | id in IdSet(b)
      ensures id in IdSet(a)
    {
      var i :| 0 <= i < |b| && b[i].id == id;
      assert a[i].id == id;
    }
  }

  /** After an amendment the list holds the same ids, still distinct. */
  lemma UpdateListingIds(asc: seq<EventLog>, logId: int, newAmount: int, newTimestamp: int)
    requires logId in IdSet(asc)
    ensures var r := UpdateListing(asc, logId, newAmount, newTimestamp).value;
      IdSet(r) == IdSet(asc) && (DistinctIds(asc) ==> DistinctIds(r))
  {
    var k := IndexOfFirst(asc, logId).value;
    var edited := EditAt(asc, k, newAmount, newTimestamp);
    var sorted := SortByTime(edited);
    SameIdsPointwise(asc, edited);
    SortByTimeIdSet(edited);
    if DistinctIds(asc) {
      SortByTimeDistinct(edited);
    }
    SameIdsPointwise(Recalc(sorted), sorted);
  }

  /** The amended entry carries the new amount and timestamp; every other
      entry keeps all its stored fields. */
  lemma UpdateListingEntries(asc: seq<EventLog>, logId: int, newAmount: int, newTimestamp: int)
    requires DistinctIds(asc)
    requires logId in IdSet(asc)
    ensures var r := UpdateListing(asc, logId, newAmount, newTimestamp).value;
      forall i, j :: 0 <= i < |asc| && 0 <= j < |r| && r[j].id == asc[i].id ==>
        SameEntry(r[j], if asc[i].id == logId then Edited(asc[i], newAmount, newTimestamp) else asc[i])
  {
    var k := IndexOfFirst(asc, logId).value;
    var edited := EditAt(asc, k, newAmount, newTimestamp);
    var sorted := SortByTime(edited);
    var r := Recalc(sorted);
    forall i, j | 0 <= i < |asc| && 0 <= j < |r| && r[j].id == asc[i].id
      ensures SameEntry(r[j], if asc[i].id == logId then Edited(asc[i], newAmount, newTimestamp) else asc[i])
    {
      assert SameEntry(r[j], sorted[j]);
      assert sorted[j] in multiset(edited);
      var m :| 0 <= m < |edited| && edited[m] == sorted[j];
      assert asc[m].id == asc[i].id;
      assert m == i;
      assert i == k <==> asc[i].id == logId;
    }
  }

  /** Replacing one entry changes the sum by the difference of amounts. */
  lemma SumAmountsReplace(logs: seq<EventLog>, k: nat, e: EventLog)
    requires k < |logs|
    ensures SumAmounts(logs[k := e]) == SumAmounts(logs) - logs[k].amountChanged + e.amountChanged
  {
    var before, after := logs[..k], logs[k + 1..];
    assert logs == (before + [logs[k]]) + after;
    assert logs[k := e] == (before + [e]) + after;
    SumAmountsConcat(before + [logs[k]], after);
    SumAmountsConcat(before + [e], after);
    SumAmountsConcat(before, [logs[k]]);
    SumAmountsConcat(before, [e]);
    assert SumAmounts([e]) == e.amountChanged by {
      assert [e][..0] == [];
    }
    assert SumAmounts([logs[k]]) == logs[k].amountChanged by {
      assert [logs[k]][..0] == [];
    }
  }

  /** After an amendment the counter's total is the old sum with the
      entry's old amount swapped for the new one. */
  lemma UpdateListingTotal(asc: seq<EventLog>, logId: int, newAmount: int, newTimestamp: int)
    requires logId in IdSet(asc)
    ensures var k := IndexOfFirst(asc, logId).value;
      FinalCount(UpdateListing(asc, logId, newAmount, newTimestamp).value)
        == SumAmounts(asc) - asc[k].amountChanged + newAmount
  {
    var k := IndexOfFirst(asc, logId).value;
    var edited := EditAt(asc, k, newAmount, newTimestamp);
    SortByTimeSum(edited);
    SumAmountsReplace(asc, k, Edited(asc[k], newAmount, newTimestamp));
  }

  /** Entries sharing a timestamp after the amendment keep the order they
      had in the fetched list (with the amended entry at its old place):
      Kotlin's `sortBy` is stable. */
  lemma UpdateListingStable(asc: seq<EventLog>, logId: int, newAmount: int, newTimestamp: int, t: int)
    requires logId in IdSet(asc)
    ensures var k := IndexOfFirst(asc, logId).value;
      IdsAt(UpdateListing(asc, logId, newAmount, newTimestamp).value, t)
        == IdsAt(EditAt(asc, k, newAmount, newTimestamp), t)
  {
    var k := IndexOfFirst(asc, logId).value;
    var sorted := SortByTime(EditAt(asc, k, newAmount, newTimestamp));
    SortByTimeStable(EditAt(asc, k, newAmount, newTimestamp), t);
    IdsAtSameEntries(Recalc(sorted), sorted, t);
  }

  /** Amending an entry of a consistent list to its own amount and
      timestamp changes nothing. */
  lemma UpdateToSameValuesIsIdentity(asc: seq<EventLog>, logId: int)
    requires SortedByTime(asc) && RunningTotalsHold(asc)
    requires logId in IdSet(asc)
    ensures var k := IndexOfFirst(asc, logId).value;
      UpdateListing(asc, logId, asc[k].amountChanged, asc[k].timestamp) == Some(asc)
  {
    var k := IndexOfFirst(asc, logId).value;
    assert EditAt(asc, k, asc[k].amountChanged, asc[k].timestamp) == asc;
    SortOfSortedIsIdentity(asc);
    RecalcOfConsistentIsIdentity(asc);
  }

  /** The list without position `k`, the others in their order. */
  function RemoveAt(logs: seq<EventLog>, k: nat): (r: seq<EventLog>)
    requires k < |logs|
    ensures |r| == |logs| - 1
    ensures forall j :: 0 <= j < |r| ==> r[j] == logs[if j < k then j else j + 1]
  {
    logs[..k] + logs[k + 1..]
  }

  /** Remove the entry `logId` and recompute the running totals of the
      rest. Yields the removed entry and the recalculated remainder; `None`
      when the id is not in the list. */
  function DeleteListing(asc: seq<EventLog>, logId: int): (r: Option<(EventLog, seq<EventLog>)>)
    ensures r.None? <==> logId !in IdSet(asc)
    ensures r.Some? ==>
      var k := IndexOfFirst(asc, logId).value;
      var (removed, rest) := r.value;
      && removed == asc[k]
      && |rest| == |asc| - 1
      && (forall j :: 0 <= j < |rest| ==> SameEntry(rest[j], asc[if j < k then j else j + 1]))
      && RunningTotalsHold(rest)
      && FinalCount(rest) == SumAmounts(asc) - removed.amountChanged
  {
    match IndexOfFirst(asc, logId)
    case None => None
    case Some(k) =>
      assert asc == asc[..k] + [asc[k]] + asc[k + 1..];
      SumAmountsConcat(asc[..k] + [asc[k]], asc[k + 1..]);
      SumAmountsConcat(asc[..k], [asc[k]]);
      SumAmountsConcat(asc[..k], asc[k + 1..]);
      Some((asc[k], Recalc(RemoveAt(asc, k))))
  }

  /** Dropping position `k` of a list with distinct ids takes exactly that
      id out and keeps the rest distinct. */
  lemma RemoveAtIds(logs: seq<EventLog>, k: nat)
    requires k < |logs|
    requires DistinctIds(logs)
    ensures IdSet(RemoveAt(logs, k)) == IdSet(logs) - {logs[k].id}
    ensures DistinctIds(RemoveAt(logs, k))
  {
    var kept := RemoveAt(logs, k);
    forall id | id in IdSet(kept)
      ensures id in IdSet(logs) - {logs[k].id}
    {
      var j :| 0 <= j < |kept| && kept[j].id == id;
      assert logs[if j < k then j else j + 1].id == id;
    }
    forall id | id in IdSet(logs) - {logs[k].id}
      ensures id in IdSet(kept)
    {
      var i :| 0 <= i < |logs| && logs[i].id == id;
      assert kept[if i < k then i else i - 1].id == id;
    }
    forall i, j | 0 <= i < j < |kept|
      ensures kept[i].id != kept[j].id
    {
      assert kept[i] == logs[if i < k then i else i + 1];
      assert kept[j] == logs[if j < k then j else j + 1];
    }
  }

  /** Dropping a position keeps a sorted list sorted. */
  lemma RemoveAtSorted(logs: seq<EventLog>, k: nat)
    requires k < |logs|
    requires SortedByTime(logs)
    ensures SortedByTime(RemoveAt(logs, k))
  {
    var kept := RemoveAt(logs, k);
    forall i, j | 0 <= i < j < |kept|
      ensures kept[i].timestamp <= kept[j].timestamp
    {
      assert kept[i] == logs[if i < k then i else i + 1];
      assert kept[j] == logs[if j < k then j else j + 1];
    }
  }

  /** Sortedness only looks at timestamps. */
  lemma SortedSameEntries(a: seq<EventLog>, b: seq<EventLog>)
    requires |a| == |b|
    requires forall i :: 0 <= i < |a| ==> SameEntry(a[i], b[i])
    requires SortedByTime(b)
    ensures SortedByTime(a)
  {
    forall i, j | 0 <= i < j < |a|
      ensures a[i].timestamp <= a[j].timestamp
    {
      assert SameEntry(a[i], b[i]) && SameEntry(a[j], b[j]);
    }
  }

  /** Removing an entry takes exactly its id out of the list and keeps the
      rest in timestamp order. */
  lemma DeleteListingContents(asc: seq<EventLog>, logId: int)
    requires DistinctIds(asc)
    requires logId in IdSet(asc)
    ensures var rest := DeleteListing(asc, logId).value.1;
      && IdSet(rest) == IdSet(asc) - {logId}
      && DistinctIds(rest)
      && (SortedByTime(asc) ==> SortedByTime(rest))
  {
    var k := IndexOfFirst(asc, logId).value;
    var kept := RemoveAt(asc, k);
    RemoveAtIds(asc, k);
    SameIdsPointwise(Recalc(kept), kept);
    if SortedByTime(asc) {
      RemoveAtSorted(asc, k);
      SortedSameEntries(Recalc(kept), kept);
    }
  }
}

=== FILE: repository.dfy ===
/** `CounterRepository`: every public operation as a transition from one
    database state to the next. The clock reading of `incrementCounter` and
    the answers of the DAO queries whose tie order SQL leaves open are
    parameters. */
module Repository {
  import opened Optional
  import opened Entities
  import opened Ledger
  import opened Recalculation
  import opened Store

  /** The counter owns a row with id `logId`. */
  predicate OwnsLog(db: Db, counterId: int, logId: int)
  {
    logId in db.logs && db.logs[logId].counterId == counterId
  }

  /** `addCounter`: a new counter with total 0 and the given default step,
      under the next free id. */
  function AddCounter(db: Db, name: string, initialIncrement: int): (r: Db)
    ensures var id := db.nextCounterId;
      && id in r.counters
      && r.counters[id].name == name
      && r.counters[id].currentCount == 0
      && r.counters[id].lastIncrementAmount == initialIncrement
    ensures r.logs == db.logs
    ensures forall id :: id in db.counters && id != db.nextCounterId ==> id in r.counters && r.counters[id] == db.counters[id]
    ensures WellFormed(db) ==> db.nextCounterId !in db.counters && r.counters.Keys == db.counters.Keys + {db.nextCounterId}
  {
    var id := db.nextCounterId;
    db.(counters := db.counters[id := Counter(id, name, 0, initialIncrement)], nextCounterId := id + 1)
  }

  /** A new counter starts well formed and consistent with no entries, and
      every existing counter keeps its consistency. */
  lemma AddCounterKeepsInvariants(db: Db, name: string, initialIncrement: int)
    requires WellFormed(db)
    ensures var r := AddCounter(db, name, initialIncrement);
      && WellFormed(r)
      && LedgerConsistent(r, db.nextCounterId, [])
      && forall c, asc :: LedgerConsistent(db, c, asc) ==> LedgerConsistent(r, c, asc)
  {
    var r := AddCounter(db, name, initialIncrement);
    var id := db.nextCounterId;
    forall k | k in r.counters
      ensures r.counters[k].id == k && 0 < k < r.nextCounterId
    {
      if k != id {
        assert r.counters[k] == db.counters[k];
      }
    }
    assert IsAscListing(r.logs, id, []);
    forall c, asc | LedgerConsistent(db, c, asc)
      ensures LedgerConsistent(r, c, asc)
    {
      assert c != id;
    }
  }

  /** `incrementCounter` as the source has it: the new total is the
      caller's snapshot `counter.currentCount` plus `amount`, written over
      the stored row, and one entry stamped `now` is inserted, whether or
      not the counter row still exists. */
  function IncrementCounterAsWritten(db: Db, counter: Counter, amount: int, now: int): (r: Db)
    ensures r.counters.Keys == db.counters.Keys
    ensures db.nextLogId in r.logs
      && r.logs[db.nextLogId] == EventLog(db.nextLogId, counter.id, now, amount, counter.currentCount + amount)
    ensures counter.id in db.counters ==>
      r.counters[counter.id] == counter.(currentCount := counter.currentCount + amount, lastIncrementAmount := amount)
    ensures forall id :: id in db.counters && id != counter.id ==> r.counters[id] == db.counters[id]
    ensures r.logs.Keys == db.logs.Keys + {db.nextLogId}
    ensures forall id :: id in db.logs && id != db.nextLogId ==> r.logs[id] == db.logs[id]
    ensures WellFormed(db) ==> db.nextLogId !in db.logs && forall c :: c != counter.id ==> SameRowsOf(db.logs, r.logs, c)
    ensures r.nextLogId == db.nextLogId + 1 && r.nextCounterId == db.nextCounterId
  {
    var newCount := counter.currentCount + amount;
    var id := db.nextLogId;
    db.(
      counters := UpdateRow(db.counters, counter.(currentCount := newCount, lastIncrementAmount := amount)),
      logs := db.logs[id := EventLog(id, counter.id, now, amount, newCount)],
      nextLogId := id + 1)
  }

  /** `incrementCounter` computing the new total from the stored row; the
      caller's snapshot is used only when the row is gone. As in the source,
      the row written back is the snapshot with the new total and step, so
      the snapshot's name replaces the stored one. */
  function IncrementCounter(db: Db, counter: Counter, amount: int, now: int): (r: Db)
    ensures r.counters.Keys == db.counters.Keys
    ensures r.logs.Keys == db.logs.Keys + {db.nextLogId}
    ensures counter.id in db.counters ==>
      var stored := db.counters[counter.id];
      && r.counters[counter.id] == counter.(currentCount := stored.currentCount + amount, lastIncrementAmount := amount)
      && r.logs[db.nextLogId] == EventLog(db.nextLogId, counter.id, now, amount, stored.currentCount + amount)
    ensures forall id :: id in db.counters && id != counter.id ==> r.counters[id] == db.counters[id]
    ensures forall id :: id in db.logs && id != db.nextLogId ==> r.logs[id] == db.logs[id]
    ensures WellFormed(db) ==> db.nextLogId !in db.logs && forall c :: c != counter.id ==> SameRowsOf(db.logs, r.logs, c)
    ensures r.nextLogId == db.nextLogId + 1 && r.nextCounterId == db.nextCounterId
  {
    var base := if counter.id in db.counters then db.counters[counter.id].currentCount else counter.currentCount;
    IncrementCounterAsWritten(db, counter.(currentCount := base), amount, now)
  }

  /** Incrementing an existing counter keeps the database well formed. */
  lemma IncrementKeepsWellFormed(db: Db, counter: Counter, amount: int, now: int)
    requires WellFormed(db)
    requires counter.id in db.counters
    ensures WellFormed(IncrementCounter(db, counter, amount, now))
  {
    var r := IncrementCounter(db, counter, amount, now);
    forall k | k in r.logs
      ensures r.logs[k].id == k && 0 < k < r.nextLogId && r.logs[k].counterId < r.nextCounterId
    {
      if k == db.nextLogId {
        assert r.logs[k].id == k && r.logs[k].counterId == counter.id;
      } else {
        assert k in db.logs && r.logs[k] == db.logs[k];
      }
    }
  }

  /** With a snapshot showing the stored total the two readings agree. */
  lemma IncrementAgreesWhenSnapshotCurrent(db: Db, counter: Counter, amount: int, now: int)
    requires counter.id in db.counters && db.counters[counter.id].currentCount == counter.currentCount
    ensures IncrementCounterAsWritten(db, counter, amount, now) == IncrementCounter(db, counter, amount, now)
  {
  }

  /** An increment stamped no earlier than every existing entry keeps the
      counter consistent: the new entry goes last in the listing. */
  lemma IncrementKeepsConsistency(db: Db, counter: Counter, amount: int, now: int, asc: seq<EventLog>)
    requires WellFormed(db)
    requires LedgerConsistent(db, counter.id, asc)
    requires forall i :: 0 <= i < |asc| ==> asc[i].timestamp <= now
    ensures var r := IncrementCounter(db, counter, amount, now);
      db.nextLogId in r.logs && LedgerConsistent(r, counter.id, asc + [r.logs[db.nextLogId]])
  {
    var r := IncrementCounter(db, counter, amount, now);
    var x := r.logs[db.nextLogId];
    assert r.logs == db.logs[x.id := x];
    ListingAppend(db.logs, counter.id, asc, x);
    FinalCountIsSum(asc);
    RunningTotalsAppend(asc, x);
  }

  /** `undoLastIncrement`: `latest` is what `getLatestLogForCounter`
      returned. When there is one, the snapshot with its total lowered by
      that amount is written over the stored row, and that single entry is
      deleted; earlier entries are not renumbered. */
  function UndoLastIncrement(db: Db, counter: Counter, latest: Option<EventLog>): (r: Db)
    requires IsLatestAnswer(db.logs, counter.id, latest)
    ensures r.counters.Keys == db.counters.Keys
    ensures !HasLogs(db.logs, counter.id) ==> r == db
    ensures HasLogs(db.logs, counter.id) ==>
      var l := latest.value;
      && OwnsLog(db, counter.id, l.id)
      && (forall id :: OwnsLog(db, counter.id, id) ==> db.logs[id].timestamp <= l.timestamp)
      && r.logs.Keys == db.logs.Keys - {l.id}
      && (forall id :: id in r.logs ==> r.logs[id] == db.logs[id])
      && (counter.id in db.counters ==> r.counters[counter.id] == counter.(currentCount := counter.currentCount - l.amountChanged))
    ensures forall id :: id in db.counters && id != counter.id ==> r.counters[id] == db.counters[id]
    ensures forall c :: c != counter.id ==> SameRowsOf(db.logs, r.logs, c)
    ensures WellFormed(db) ==> WellFormed(r)
  {
    match latest
    case None => db
    case Some(l) =>
      db.(
        counters := UpdateRow(db.counters, counter.(currentCount := counter.currentCount - l.amountChanged)),
        logs := db.logs - {l.id})
  }

  /** When the listing's last timestamp is strictly the greatest, the
      latest-entry query can only answer with that last entry. */
  lemma LatestIsLastOfListing(logs: map<int, EventLog>, counterId: int, latest: Option<EventLog>, asc: seq<EventLog>)
    requires IsAscListing(logs, counterId, asc)
    requires IsLatestAnswer(logs, counterId, latest)
    requires forall i :: 0 <= i < |asc| - 1 ==> asc[i].timestamp < asc[|asc| - 1].timestamp
    ensures |asc| == 0 <==> latest.None?
    ensures |asc| > 0 ==> latest == Some(asc[|asc| - 1])
  {
    ListingIds(logs, counterId, asc);
    if |asc| > 0 {
      assert HasLogs(logs, counterId) by {
        assert asc[0].id in logs && logs[asc[0].id].counterId == counterId;
      }
    }
    if latest.Some? && |asc| > 0 {
      var n := |asc|;
      var l := latest.value;
      assert l.id in IdSet(asc);
      var m :| 0 <= m < n && asc[m].id == l.id;
      assert asc[n - 1].id in IdSet(asc);
      assert asc[n - 1].timestamp <= l.timestamp;
    }
  }

  /** With a current snapshot and a unique latest timestamp, undo removes
      the last entry of the listing and the rest stays consistent. */
  lemma UndoKeepsConsistency(db: Db, counter: Counter, latest: Option<EventLog>, asc: seq<EventLog>)
    requires LedgerConsistent(db, counter.id, asc)
    requires db.counters[counter.id].currentCount == counter.currentCount
    requires IsLatestAnswer(db.logs, counter.id, latest)
    requires forall i :: 0 <= i < |asc| - 1 ==> asc[i].timestamp < asc[|asc| - 1].timestamp
    ensures LedgerConsistent(UndoLastIncrement(db, counter, latest), counter.id, if |asc| == 0 then [] else asc[..|asc| - 1])
  {
    LatestIsLastOfListing(db.logs, counter.id, latest, asc);
    if |asc| > 0 {
      ListingDropLast(db.logs, counter.id, asc);
      FinalCountDropLast(asc);
    }
  }

  /** Increment followed by undo gives back the entry table and the total;
      the row keeps the snapshot's name and the increment's amount as step. Needs the new
      entry to be strictly the latest, so that the query must pick it. */
  lemma IncrementThenUndoRestores(db: Db, counter: Counter, amount: int, now: int, latest: Option<EventLog>)
    requires WellFormed(db)
    requires counter.id in db.counters
    requires forall id :: OwnsLog(db, counter.id, id) ==> db.logs[id].timestamp < now
    requires var mid := IncrementCounter(db, counter, amount, now);
      IsLatestAnswer(mid.logs, counter.id, latest)
    ensures var mid := IncrementCounter(db, counter, amount, now);
      var r := UndoLastIncrement(mid, mid.counters[counter.id], latest);
      && r.logs == db.logs
      && r.counters.Keys == db.counters.Keys
      && r.counters[counter.id].currentCount == db.counters[counter.id].currentCount
      && r.counters[counter.id].lastIncrementAmount == amount
      && r.counters[counter.id] == counter.(currentCount := db.counters[counter.id].currentCount, lastIncrementAmount := amount)
      && forall id :: id in db.counters && id != counter.id ==> r.counters[id] == db.counters[id]
  {
    var mid := IncrementCounter(db, counter, amount, now);
    assert OwnsLog(mid, counter.id, db.nextLogId);
    assert HasLogs(mid.logs, counter.id);
    assert latest.value.id == db.nextLogId;
    var r := UndoLastIncrement(mid, mid.counters[counter.id], latest);
    assert r.logs == db.logs;
  }

  /** `updateLogAndRecalculate`: `asc` is what `getAllLogsForCounterAsc`
      returned. Amend the entry, re-sort, recompute every running total and
      write entries and counter total together; nothing is written when
      the entry or the counter is not found. */
  function UpdateLogAndRecalculate(db: Db, counterId: int, logId: int, newAmount: int, newTimestamp: int, asc: seq<EventLog>): (r: Db)
    requires IsAscListing(db.logs, counterId, asc)
    ensures !OwnsLog(db, counterId, logId) || counterId !in db.counters ==> r == db
    ensures r.logs.Keys == db.logs.Keys && r.counters.Keys == db.counters.Keys
    ensures counterId in db.counters ==> r.counters[counterId] == db.counters[counterId].(currentCount := r.counters[counterId].currentCount)
    ensures forall id :: id in db.counters && id != counterId ==> r.counters[id] == db.counters[id]
    ensures forall c :: c != counterId ==> SameRowsOf(db.logs, r.logs, c)
    ensures r.nextLogId == db.nextLogId && r.nextCounterId == db.nextCounterId
  {
    ListingIds(db.logs, counterId, asc);
    match UpdateListing(asc, logId, newAmount, newTimestamp)
    case None => db
    case Some(updated) =>
      if counterId in db.counters then
        UpdateFrame(db.logs, counterId, asc, logId, newAmount, newTimestamp);
        db.(
          logs := UpdateRows(db.logs, updated),
          counters := db.counters[counterId := db.counters[counterId].(currentCount := FinalCount(updated))])
      else db
  }

  /** Unfolding helper, not a property: the successful branch of
      `UpdateLogAndRecalculate` written out, the recalculated list over the
      entry table and its final total on the counter. */
  lemma UpdateLogWrites(db: Db, counterId: int, logId: int, newAmount: int, newTimestamp: int, asc: seq<EventLog>, updated: seq<EventLog>)
    requires IsAscListing(db.logs, counterId, asc)
    requires UpdateListing(asc, logId, newAmount, newTimestamp) == Some(updated)
    requires counterId in db.counters
    ensures UpdateLogAndRecalculate(db, counterId, logId, newAmount, newTimestamp, asc)
      == db.(logs := UpdateRows(db.logs, updated),
             counters := db.counters[counterId := db.counters[counterId].(currentCount := FinalCount(updated))])
  {
  }

  /** The recalculated list holds the counter's ids, each once, and every
      entry still names the counter. */
  lemma UpdatedRowsStayWithCounter(logs: map<int, EventLog>, counterId: int, asc: seq<EventLog>,
                                   logId: int, newAmount: int, newTimestamp: int)
    requires IsAscListing(logs, counterId, asc)
    requires logId in IdSet(asc)
    ensures var updated := UpdateListing(asc, logId, newAmount, newTimestamp).value;
      && DistinctIds(updated) && IdSet(updated) == IdSet(asc)
      && (forall j :: 0 <= j < |updated| ==> updated[j].id in logs && updated[j].counterId == counterId)
  {
    var updated := UpdateListing(asc, logId, newAmount, newTimestamp).value;
    UpdateListingIds(asc, logId, newAmount, newTimestamp);
    UpdateListingEntries(asc, logId, newAmount, newTimestamp);
    ListingIds(logs, counterId, asc);
    forall j | 0 <= j < |updated|
      ensures updated[j].id in logs && updated[j].counterId == counterId
    {
      assert updated[j].id in IdSet(asc);
      var i :| 0 <= i < |asc| && asc[i].id == updated[j].id;
    }
  }

  /** Writing the recalculated list back leaves the other counters' rows
      alone. */
  lemma UpdateFrame(logs: map<int, EventLog>, counterId: int, asc: seq<EventLog>,
                    logId: int, newAmount: int, newTimestamp: int)
    requires IsAscListing(logs, counterId, asc)
    requires logId in IdSet(asc)
    ensures var updated := UpdateListing(asc, logId, newAmount, newTimestamp).value;
      forall c :: c != counterId ==> SameRowsOf(logs, UpdateRows(logs, updated), c)
  {
    var updated := UpdateListing(asc, logId, newAmount, newTimestamp).value;
    UpdatedRowsStayWithCounter(logs, counterId, asc, logId, newAmount, newTimestamp);
    ListingIds(logs, counterId, asc);
    RewriteFrame(logs, counterId, updated);
  }

  /** After an amendment the recalculated list is the counter's listing,
      the counter is consistent with it, and its total is the old total
      with the entry's old amount swapped for the new one. */
  lemma UpdateLogRecalculates(db: Db, counterId: int, logId: int, newAmount: int, newTimestamp: int, asc: seq<EventLog>)
    requires IsAscListing(db.logs, counterId, asc)
    requires OwnsLog(db, counterId, logId) && counterId in db.counters
    ensures var r := UpdateLogAndRecalculate(db, counterId, logId, newAmount, newTimestamp, asc);
      var updated := UpdateListing(asc, logId, newAmount, newTimestamp).value;
      && LedgerConsistent(r, counterId, updated)
      && r.counters[counterId].currentCount == SumAmounts(asc) - db.logs[logId].amountChanged + newAmount
  {
    ListingIds(db.logs, counterId, asc);
    var updated := UpdateListing(asc, logId, newAmount, newTimestamp).value;
    UpdatedRowsStayWithCounter(db.logs, counterId, asc, logId, newAmount, newTimestamp);
    ListingRewritten(db.logs, counterId, updated);
    UpdateListingTotal(asc, logId, newAmount, newTimestamp);
  }

  /** The amended entry carries the new amount and timestamp and every other
      row keeps its counter, timestamp and amount; only running totals move. */
  lemma UpdateLogEditsOnlyTarget(db: Db, counterId: int, logId: int, newAmount: int, newTimestamp: int, asc: seq<EventLog>)
    requires IsAscListing(db.logs, counterId, asc)
    requires OwnsLog(db, counterId, logId) && counterId in db.counters
    ensures var r := UpdateLogAndRecalculate(db, counterId, logId, newAmount, newTimestamp, asc);
      && SameEntry(r.logs[logId], Edited(db.logs[logId], newAmount, newTimestamp))
      && forall id :: id in db.logs && id != logId ==> SameEntry(r.logs[id], db.logs[id])
  {
    ListingIds(db.logs, counterId, asc);
    var r := UpdateLogAndRecalculate(db, counterId, logId, newAmount, newTimestamp, asc);
    var updated := UpdateListing(asc, logId, newAmount, newTimestamp).value;
    UpdatedRowsStayWithCounter(db.logs, counterId, asc, logId, newAmount, newTimestamp);
    UpdateListingEntries(asc, logId, newAmount, newTimestamp);
    forall id | id in db.logs
      ensures SameEntry(r.logs[id], if id == logId then Edited(db.logs[id], newAmount, newTimestamp) else db.logs[id])
    {
      if id in IdSet(asc) {
        var i :| 0 <= i < |asc| && asc[i].id == id;
        var j :| 0 <= j < |updated| && updated[j].id == id;
        assert r.logs[id] == updated[j];
      }
    }
  }

  /** An amendment keeps the database well formed: rows stay under their
      own ids and every entry keeps its counter. */
  lemma UpdateLogKeepsWellFormed(db: Db, counterId: int, logId: int, newAmount: int, newTimestamp: int, asc: seq<EventLog>)
    requires WellFormed(db)
    requires IsAscListing(db.logs, counterId, asc)
    ensures WellFormed(UpdateLogAndRecalculate(db, counterId, logId, newAmount, newTimestamp, asc))
  {
    var r := UpdateLogAndRecalculate(db, counterId, logId, newAmount, newTimestamp, asc);
    if OwnsLog(db, counterId, logId) && counterId in db.counters {
      UpdateLogEditsOnlyTarget(db, counterId, logId, newAmount, newTimestamp, asc);
      forall id | id in r.logs
        ensures r.logs[id].id == id && 0 < id < r.nextLogId && r.logs[id].counterId < r.nextCounterId
      {
        assert SameEntry(r.logs[id], if id == logId then Edited(db.logs[id], newAmount, newTimestamp) else db.logs[id]);
      }
    }
    forall id | id in r.counters
      ensures r.counters[id].id == id && 0 < id < r.nextCounterId
    {
      assert r.counters[id].id == db.counters[id].id;
    }
  }

  /** Amending an entry of a consistent counter to its own amount and
      timestamp writes back exactly what was there. */
  lemma UpdateLogToSameValuesIsIdentity(db: Db, counterId: int, logId: int, asc: seq<EventLog>)
    requires LedgerConsistent(db, counterId, asc)
    requires OwnsLog(db, counterId, logId)
    ensures UpdateLogAndRecalculate(db, counterId, logId, db.logs[logId].amountChanged, db.logs[logId].timestamp, asc) == db
  {
    ListingIds(db.logs, counterId, asc);
    var k := IndexOfFirst(asc, logId).value;
    assert asc[k] == db.logs[logId];
    UpdateToSameValuesIsIdentity(asc, logId);
    UpdateRowsUnchanged(db.logs, asc);
    assert db.counters[counterId := db.counters[counterId].(currentCount := FinalCount(asc))] == db.counters;
  }

  /** `deleteLogAndRecalculate`: `asc` is what `getAllLogsForCounterAsc`
      returned. Remove the entry, recompute the running totals of the rest
      and write deletion, entries and counter total together; nothing is
      written when the entry or the counter is not found. */
  function DeleteLogAndRecalculate(db: Db, counterId: int, logId: int, asc: seq<EventLog>): (r: Db)
    requires IsAscListing(db.logs, counterId, asc)
    ensures r.counters.Keys == db.counters.Keys
    ensures !OwnsLog(db, counterId, logId) || counterId !in db.counters ==> r == db
    ensures OwnsLog(db, counterId, logId) && counterId in db.counters ==> r.logs.Keys == db.logs.Keys - {logId}
    ensures forall id :: id in db.counters && id != counterId ==> r.counters[id] == db.counters[id]
    ensures forall c :: c != counterId ==> SameRowsOf(db.logs, r.logs, c)
    ensures r.nextLogId == db.nextLogId && r.nextCounterId == db.nextCounterId
  {
    ListingIds(db.logs, counterId, asc);
    match DeleteListing(asc, logId)
    case None => db
    case Some((removed, rest)) =>
      if counterId in db.counters then
        DeleteFrame(db.logs, counterId, asc, logId);
        db.(
          logs := UpdateRows(db.logs - {logId}, rest),
          counters := db.counters[counterId := db.counters[counterId].(currentCount := FinalCount(rest))])
      else db
  }

  /** Unfolding helper, not a property: the successful branch of
      `DeleteLogAndRecalculate` written out, the entry gone, the recalculated
      remainder over the rest and its final total on the counter. */
  lemma DeleteLogWrites(db: Db, counterId: int, logId: int, asc: seq<EventLog>, removed: EventLog, rest: seq<EventLog>)
    requires IsAscListing(db.logs, counterId, asc)
    requires DeleteListing(asc, logId) == Some((removed, rest))
    requires counterId in db.counters
    ensures DeleteLogAndRecalculate(db, counterId, logId, asc)
      == db.(logs := UpdateRows(db.logs - {logId}, rest),
             counters := db.counters[counterId := db.counters[counterId].(currentCount := FinalCount(rest))])
  {
  }

  /** The recalculated remainder holds the counter's ids but the deleted
      one, each once, and every entry still names the counter. */
  lemma RemainingRowsStayWithCounter(logs: map<int, EventLog>, counterId: int, asc: seq<EventLog>, logId: int)
    requires IsAscListing(logs, counterId, asc)
    requires logId in IdSet(asc)
    ensures var rest := DeleteListing(asc, logId).value.1;
      && DeleteListing(asc, logId).value.0.id == logId
      && DistinctIds(rest) && SortedByTime(rest) && IdSet(rest) == IdSet(asc) - {logId}
      && (forall j :: 0 <= j < |rest| ==> rest[j].id in logs - {logId} && rest[j].counterId == counterId)
  {
    var rest := DeleteListing(asc, logId).value.1;
    DeleteListingContents(asc, logId);
    DeleteListingOwner(asc, logId, counterId);
    ListingIds(logs, counterId, asc);
    forall j | 0 <= j < |rest|
      ensures rest[j].id in logs - {logId}
    {
      assert rest[j].id in IdSet(rest);
    }
  }

  /** Every entry of the recalculated remainder names the same counter as
      the entries it came from. */
  lemma DeleteListingOwner(asc: seq<EventLog>, logId: int, counterId: int)
    requires forall i :: 0 <= i < |asc| ==> asc[i].counterId == counterId
    requires logId in IdSet(asc)
    ensures var rest := DeleteListing(asc, logId).value.1;
      forall j :: 0 <= j < |rest| ==> rest[j].counterId == counterId
  {
    var rest := DeleteListing(asc, logId).value.1;
    var k := IndexOfFirst(asc, logId).value;
    forall j | 0 <= j < |rest|
      ensures rest[j].counterId == counterId
    {
      assert SameEntry(rest[j], asc[if j < k then j else j + 1]);
    }
  }

  /** Writing the remainder back after the deletion leaves the other
      counters' rows alone. */
  lemma DeleteFrame(logs: map<int, EventLog>, counterId: int, asc: seq<EventLog>, logId: int)
    requires IsAscListing(logs, counterId, asc)
    requires logId in IdSet(asc)
    ensures var rest := DeleteListing(asc, logId).value.1;
      forall c :: c != counterId ==> SameRowsOf(logs, UpdateRows(logs - {logId}, rest), c)
  {
    var rest := DeleteListing(asc, logId).value.1;
    var base := logs - {logId};
    RemainingRowsStayWithCounter(logs, counterId, asc, logId);
    ListingIds(logs, counterId, asc);
    assert forall id :: id in IdSet(rest) && id in base ==> base[id].counterId == counterId;
    RewriteFrame(base, counterId, rest);
    RemoveRowFrame(logs, logId, counterId);
    forall c | c != counterId
      ensures SameRowsOf(logs, UpdateRows(base, rest), c)
    {
      SameRowsTrans(logs, base, UpdateRows(base, rest), c);
    }
  }

  /** After a deletion the recalculated remainder is the counter's listing,
      the counter is consistent with it, and its total drops by exactly the
      deleted amount. */
  lemma DeleteLogRecalculates(db: Db, counterId: int, logId: int, asc: seq<EventLog>)
    requires IsAscListing(db.logs, counterId, asc)
    requires OwnsLog(db, counterId, logId) && counterId in db.counters
    ensures var r := DeleteLogAndRecalculate(db, counterId, logId, asc);
      var rest := DeleteListing(asc, logId).value.1;
      && LedgerConsistent(r, counterId, rest)
      && r.counters[counterId].currentCount == SumAmounts(asc) - db.logs[logId].amountChanged
  {
    ListingIds(db.logs, counterId, asc);
    var rest := DeleteListing(asc, logId).value.1;
    RemainingRowsStayWithCounter(db.logs, counterId, asc, logId);
    ListingRewritten(db.logs - {logId}, counterId, rest);
  }

  /** The surviving entries keep their counter, timestamp and amount (their
      relative order in the listing is stated by `DeleteListing`). */
  lemma DeleteLogKeepsOthers(db: Db, counterId: int, logId: int, asc: seq<EventLog>)
    requires IsAscListing(db.logs, counterId, asc)
    requires OwnsLog(db, counterId, logId) && counterId in db.counters
    ensures var r := DeleteLogAndRecalculate(db, counterId, logId, asc);
      forall id :: id in r.logs ==> SameEntry(r.logs[id], db.logs[id])
  {
    ListingIds(db.logs, counterId, asc);
    var r := DeleteLogAndRecalculate(db, counterId, logId, asc);
    var rest := DeleteListing(asc, logId).value.1;
    var k := IndexOfFirst(asc, logId).value;
    RemainingRowsStayWithCounter(db.logs, counterId, asc, logId);
    forall id | id in r.logs
      ensures SameEntry(r.logs[id], db.logs[id])
    {
      if id in IdSet(rest) {
        var j :| 0 <= j < |rest| && rest[j].id == id;
        assert r.logs[id] == rest[j];
        assert SameEntry(rest[j], asc[if j < k then j else j + 1]);
      }
    }
  }

  /** A deletion keeps the database well formed: the surviving rows keep
      their ids and counters. */
  lemma DeleteLogKeepsWellFormed(db: Db, counterId: int, logId: int, asc: seq<EventLog>)
    requires WellFormed(db)
    requires IsAscListing(db.logs, counterId, asc)
    ensures WellFormed(DeleteLogAndRecalculate(db, counterId, logId, asc))
  {
    var r := DeleteLogAndRecalculate(db, counterId, logId, asc);
    if OwnsLog(db, counterId, logId) && counterId in db.counters {
      ListingIds(db.logs, counterId, asc);
      var d := DeleteListing(asc, logId).value;
      DeleteLogWrites(db, counterId, logId, asc, d.0, d.1);
      DeleteLogKeepsOthers(db, counterId, logId, asc);
      forall id | id in r.logs
        ensures r.logs[id].id == id && 0 < id < r.nextLogId && r.logs[id].counterId < r.nextCounterId
      {
        assert SameEntry(r.logs[id], db.logs[id]);
      }
    }
    forall id | id in r.counters
      ensures r.counters[id].id == id && 0 < id < r.nextCounterId
    {
      assert r.counters[id].id == db.counters[id].id;
    }
  }

  /** `updateCounter`: the row with the counter's id is replaced wholesale. */
  function UpdateCounter(db: Db, counter: Counter): (r: Db)
    ensures r.logs == db.logs && r.counters.Keys == db.counters.Keys
    ensures counter.id in db.counters ==> r.counters[counter.id] == counter
    ensures forall id :: id in db.counters && id != counter.id ==> r.counters[id] == db.counters[id]
    ensures WellFormed(db) ==> WellFormed(r)
  {
    db.(counters := UpdateRow(db.counters, counter))
  }

  /** A whole-row update that keeps the stored total keeps the counter
      consistent; every other counter is untouched. */
  lemma UpdateCounterKeepsConsistency(db: Db, counter: Counter, asc: seq<EventLog>)
    requires LedgerConsistent(db, counter.id, asc)
    requires counter.currentCount == db.counters[counter.id].currentCount
    ensures LedgerConsistent(UpdateCounter(db, counter), counter.id, asc)
  {
  }

  /** `deleteCounter`: first every entry of the counter, then its row. */
  function DeleteCounter(db: Db, counter: Counter): (r: Db)
    ensures counter.id !in r.counters && !HasLogs(r.logs, counter.id)
    ensures r.counters.Keys == db.counters.Keys - {counter.id}
    ensures forall id :: id in r.counters ==> r.counters[id] == db.counters[id]
    ensures r.logs.Keys <= db.logs.Keys
    ensures forall id :: id in db.logs ==> (id in r.logs <==> db.logs[id].counterId != counter.id)
    ensures forall id :: id in r.logs ==> r.logs[id] == db.logs[id]
  {
    db.(
      logs := map id | id in db.logs && db.logs[id].counterId != counter.id :: db.logs[id],
      counters := db.counters - {counter.id})
  }

  /** Deleting a counter keeps the database well formed and every other
      counter consistent. */
  lemma DeleteCounterKeepsOthers(db: Db, counter: Counter, c: int, asc: seq<EventLog>)
    requires WellFormed(db)
    requires c != counter.id
    requires LedgerConsistent(db, c, asc)
    ensures WellFormed(DeleteCounter(db, counter))
    ensures LedgerConsistent(DeleteCounter(db, counter), c, asc)
  {
    ConsistentFrame(db, DeleteCounter(db, counter), c, asc);
  }
}

=== FILE: scenarios.dfy ===
/** The instrumented repository tests replayed on the model: one counter
    named "Test Counter" with default step 10 in a fresh database, and a
    clock reading successive milliseconds. The amounts are left general;
    the tests' own numbers are instances. */
module Scenarios {
  import opened Optional
  import opened Entities
  import opened Ledger
  import opened Recalculation
  import opened Store
  import opened Repository

  const TestName: string := "Test Counter"

  /** The counter row as read right after `addCounter`; the tests keep
      passing this snapshot to `incrementCounter`. */
  function Snapshot(): Counter
  {
    Counter(1, TestName, 0, 10)
  }

  /** The entry an increment of `amount` at time `t` writes as entry `id`. */
  function Entry(id: int, t: int, amount: int, total: int): EventLog
  {
    EventLog(id, 1, t, amount, total)
  }

  /** The states after zero, one, two and three increments. */
  function Db0(): Db
  {
    Db(map[1 := Snapshot()], map[], 2, 1)
  }

  function Db1(a: int): Db
  {
    Db(map[1 := Counter(1, TestName, a, a)], map[1 := Entry(1, 1000, a, a)], 2, 2)
  }

  function Db2(a: int, b: int): Db
  {
    Db(map[1 := Counter(1, TestName, a + b, b)],
       map[1 := Entry(1, 1000, a, a), 2 := Entry(2, 1001, b, a + b)], 2, 3)
  }

  /** Three entries of amounts `a`, `b`, `c` at successive milliseconds,
      recording totals `ta`, `tb`, `tc`: as a table and as a list. */
  function LogsWith(a: int, b: int, c: int, ta: int, tb: int, tc: int): map<int, EventLog>
  {
    map[1 := Entry(1, 1000, a, ta), 2 := Entry(2, 1001, b, tb), 3 := Entry(3, 1002, c, tc)]
  }

  function EntriesWith(a: int, b: int, c: int, ta: int, tb: int, tc: int): seq<EventLog>
  {
    [Entry(1, 1000, a, ta), Entry(2, 1001, b, tb), Entry(3, 1002, c, tc)]
  }

  /** The table three increments leave when each records the running total. */
  function ThreeLogs(a: int, b: int, c: int): map<int, EventLog>
  {
    LogsWith(a, b, c, a, a + b, a + b + c)
  }

  function Db3(a: int, b: int, c: int): Db
  {
    Db(map[1 := Counter(1, TestName, a + b + c, c)], ThreeLogs(a, b, c), 2, 4)
  }

  /** Those entries in timestamp order. */
  function ThreeEntries(a: int, b: int, c: int): seq<EventLog>
  {
    EntriesWith(a, b, c, a, a + b, a + b + c)
  }

  lemma AddCounterStep()
    ensures AddCounter(EmptyDb, TestName, 10) == Db0()
  {
  }

  /** Each increment reads the stored total, so passing the stale snapshot
      does no harm. */
  lemma IncrementSteps(a: int, b: int, c: int)
    ensures IncrementCounter(Db0(), Snapshot(), a, 1000) == Db1(a)
    ensures IncrementCounter(Db1(a), Snapshot(), b, 1001) == Db2(a, b)
    ensures IncrementCounter(Db2(a, b), Snapshot(), c, 1002) == Db3(a, b, c)
  {
    assert Db2(a, b).logs[3 := Entry(3, 1002, c, a + b + c)] == ThreeLogs(a, b, c);
  }

  /** The three entries in order are a listing of the table, and no two
      share a timestamp. */
  lemma EntriesWithListing(a: int, b: int, c: int, ta: int, tb: int, tc: int)
    ensures IsAscListing(LogsWith(a, b, c, ta, tb, tc), 1, EntriesWith(a, b, c, ta, tb, tc))
    ensures DistinctTimestamps(LogsWith(a, b, c, ta, tb, tc), 1)
  {
    var e := EntriesWith(a, b, c, ta, tb, tc);
    assert IdSet(e) == {1, 2, 3} by {
      assert e[0].id == 1 && e[1].id == 2 && e[2].id == 3;
    }
  }

  /** Distinct timestamps leave the ascending query one answer. */
  lemma EntriesWithUnique(a: int, b: int, c: int, ta: int, tb: int, tc: int, asc: seq<EventLog>)
    requires IsAscListing(LogsWith(a, b, c, ta, tb, tc), 1, asc)
    ensures asc == EntriesWith(a, b, c, ta, tb, tc)
  {
    EntriesWithListing(a, b, c, ta, tb, tc);
    ListingUnique(LogsWith(a, b, c, ta, tb, tc), 1, asc, EntriesWith(a, b, c, ta, tb, tc));
  }

  lemma ThreeEntriesListing(a: int, b: int, c: int)
    ensures IsAscListing(ThreeLogs(a, b, c), 1, ThreeEntries(a, b, c))
    ensures DistinctTimestamps(ThreeLogs(a, b, c), 1)
  {
    EntriesWithListing(a, b, c, a, a + b, a + b + c);
  }

  lemma ThreeLogsListing(a: int, b: int, c: int, asc: seq<EventLog>)
    requires IsAscListing(ThreeLogs(a, b, c), 1, asc)
    ensures asc == ThreeEntries(a, b, c)
  {
    EntriesWithUnique(a, b, c, a, a + b, a + b + c, asc);
  }

  /** Each entry records the running total after it. */
  lemma ThreeEntriesConsistent(a: int, b: int, c: int)
    ensures RunningTotalsHold(ThreeEntries(a, b, c)) && FinalCount(ThreeEntries(a, b, c)) == a + b + c
  {
    var e := ThreeEntries(a, b, c);
    assert SumAmounts(e[..1]) == a by {
      assert e[..1][..0] == [];
    }
    assert SumAmounts(e[..2]) == a + b by {
      assert e[..2][..1] == e[..1];
    }
    assert SumAmounts(e[..3]) == a + b + c by {
      assert e[..3][..2] == e[..2];
    }
  }

  /** The entry table with the second of three entries amended or gone. */
  lemma ThreeLogsRewritten(a: int, b: int, c: int, m: int)
    ensures UpdateRows(ThreeLogs(a, b, c), ThreeEntries(a, m, c)) == ThreeLogs(a, m, c)
  {
    var e := ThreeEntries(a, m, c);
    var w := UpdateRows(ThreeLogs(a, b, c), e);
    assert DistinctIds(e);
    assert w[1] == e[0] && w[2] == e[1] && w[3] == e[2];
  }

  /** The middle entry with its new amount and its old running total. */
  function MiddleEdited(a: int, b: int, c: int, m: int): seq<EventLog>
  {
    [Entry(1, 1000, a, a), Entry(2, 1001, m, a + b), Entry(3, 1002, c, a + b + c)]
  }

  lemma MiddleEditedIsEditAt(a: int, b: int, c: int, m: int)
    ensures IndexOfFirst(ThreeEntries(a, b, c), 2) == Some(1)
    ensures EditAt(ThreeEntries(a, b, c), 1, m, 1001) == MiddleEdited(a, b, c, m)
  {
  }

  lemma MiddleEditedSorted(a: int, b: int, c: int, m: int)
    ensures SortByTime(MiddleEdited(a, b, c, m)) == MiddleEdited(a, b, c, m)
  {
    SortOfSortedIsIdentity(MiddleEdited(a, b, c, m));
  }

  lemma MiddleEditedRecalc(a: int, b: int, c: int, m: int)
    ensures Recalc(MiddleEdited(a, b, c, m)) == ThreeEntries(a, m, c)
  {
    var edited := MiddleEdited(a, b, c, m);
    var r := Recalc(edited);
    ThreeEntriesConsistent(a, m, c);
    assert forall i :: 0 <= i < 3 ==> SameEntry(r[i], edited[i]);
    RunningTotalsDetermineCounts(r, ThreeEntries(a, m, c));
  }

  /** On the list, amending the middle entry re-sorts to the same order
      and recomputes the totals after it. */
  lemma AmendMiddleListing(a: int, b: int, c: int, m: int)
    ensures UpdateListing(ThreeEntries(a, b, c), 2, m, 1001) == Some(ThreeEntries(a, m, c))
  {
    MiddleEditedIsEditAt(a, b, c, m);
    MiddleEditedSorted(a, b, c, m);
    MiddleEditedRecalc(a, b, c, m);
  }

  /** What amending the middle entry to `m` writes, spelled out. */
  lemma AmendMiddleWrites(a: int, b: int, c: int, m: int)
    ensures IsAscListing(Db3(a, b, c).logs, 1, ThreeEntries(a, b, c))
    ensures UpdateLogAndRecalculate(Db3(a, b, c), 1, 2, m, 1001, ThreeEntries(a, b, c))
      == Db3(a, b, c).(logs := UpdateRows(ThreeLogs(a, b, c), ThreeEntries(a, m, c)),
                       counters := Db3(a, b, c).counters[1 := Db3(a, b, c).counters[1].(currentCount := FinalCount(ThreeEntries(a, m, c)))])
  {
    ThreeEntriesListing(a, b, c);
    AmendMiddleListing(a, b, c, m);
    UpdateLogWrites(Db3(a, b, c), 1, 2, m, 1001, ThreeEntries(a, b, c), ThreeEntries(a, m, c));
  }

  /** Amending the middle entry to `m` at its own timestamp leaves exactly
      the state three increments `a`, `m`, `c` would have produced. */
  lemma AmendMiddleStep(a: int, b: int, c: int, m: int)
    ensures IsAscListing(Db3(a, b, c).logs, 1, ThreeEntries(a, b, c))
    ensures UpdateLogAndRecalculate(Db3(a, b, c), 1, 2, m, 1001, ThreeEntries(a, b, c)) == Db3(a, m, c)
  {
    AmendMiddleWrites(a, b, c, m);
    AmendedState(a, b, c, m);
  }

  lemma AmendedState(a: int, b: int, c: int, m: int)
    ensures Db3(a, b, c).(logs := UpdateRows(ThreeLogs(a, b, c), ThreeEntries(a, m, c)),
                          counters := Db3(a, b, c).counters[1 := Db3(a, b, c).counters[1].(currentCount := FinalCount(ThreeEntries(a, m, c)))])
      == Db3(a, m, c)
  {
    ThreeLogsRewritten(a, b, c, m);
    ThreeEntriesConsistent(a, m, c);
  }

  /** `testIncrementAndRecalculation`: increments of 10, 20 and 5 total 35
      with running totals 10, 30, 35; amending the middle entry to +50
      ripples through to running totals 10, 60, 65 and a total of 65. */
  lemma IncrementAndRecalculationTest(asc: seq<EventLog>)
    requires IsAscListing(Db3(10, 20, 5).logs, 1, asc)
    ensures IncrementCounter(IncrementCounter(IncrementCounter(AddCounter(EmptyDb, TestName, 10),
              Snapshot(), 10, 1000), Snapshot(), 20, 1001), Snapshot(), 5, 1002) == Db3(10, 20, 5)
    ensures Db3(10, 20, 5).counters[1].currentCount == 35
    ensures |asc| == 3 && asc[0].resultingCount == 10 && asc[1].resultingCount == 30 && asc[2].resultingCount == 35
    ensures var r := UpdateLogAndRecalculate(Db3(10, 20, 5), 1, asc[1].id, 50, asc[1].timestamp, asc);
      && r.counters[1].currentCount == 65
      && forall after: seq<EventLog> :: IsAscListing(r.logs, 1, after) ==>
           |after| == 3 && after[0].resultingCount == 10 && after[1].resultingCount == 60 && after[2].resultingCount == 65
  {
    ThreeIncrementsFromScratch(10, 20, 5);
    ThreeLogsListing(10, 20, 5, asc);
    AmendMiddleStep(10, 20, 5, 50);
    forall after: seq<EventLog> | IsAscListing(Db3(10, 50, 5).logs, 1, after)
      ensures after == ThreeEntries(10, 50, 5)
    {
      ThreeLogsListing(10, 50, 5, after);
    }
  }

  /** Each increment reads the stored total, so handing every call the
      snapshot taken at creation still leaves the counter consistent. */
  lemma ThreeIncrementsFromScratch(a: int, b: int, c: int)
    ensures AddCounter(EmptyDb, TestName, 10).counters[1] == Snapshot()
    ensures IncrementCounter(IncrementCounter(IncrementCounter(AddCounter(EmptyDb, TestName, 10),
              Snapshot(), a, 1000), Snapshot(), b, 1001), Snapshot(), c, 1002) == Db3(a, b, c)
    ensures LedgerConsistent(Db3(a, b, c), 1, ThreeEntries(a, b, c))
  {
    AddCounterStep();
    IncrementSteps(a, b, c);
    ThreeEntriesListing(a, b, c);
    ThreeEntriesConsistent(a, b, c);
  }

  /** The table and list left after deleting the middle of three entries. */
  function TwoLogs(a: int, c: int): map<int, EventLog>
  {
    map[1 := Entry(1, 1000, a, a), 3 := Entry(3, 1002, c, a + c)]
  }

  function TwoEntries(a: int, c: int): seq<EventLog>
  {
    [Entry(1, 1000, a, a), Entry(3, 1002, c, a + c)]
  }

  lemma TwoEntriesListing(a: int, c: int)
    ensures IsAscListing(TwoLogs(a, c), 1, TwoEntries(a, c))
    ensures DistinctTimestamps(TwoLogs(a, c), 1)
    ensures RunningTotalsHold(TwoEntries(a, c)) && FinalCount(TwoEntries(a, c)) == a + c
  {
    var e := TwoEntries(a, c);
    assert IdSet(e) == {1, 3} by {
      assert e[0].id == 1 && e[1].id == 3;
    }
    assert SumAmounts(e[..1]) == a by {
      assert e[..1][..0] == [];
    }
    assert SumAmounts(e[..2]) == a + c by {
      assert e[..2][..1] == e[..1];
    }
  }

  lemma TwoLogsListing(a: int, c: int, asc: seq<EventLog>)
    requires IsAscListing(TwoLogs(a, c), 1, asc)
    ensures asc == TwoEntries(a, c)
  {
    TwoEntriesListing(a, c);
    ListingUnique(TwoLogs(a, c), 1, asc, TwoEntries(a, c));
  }

  /** On the list, deleting the middle entry recomputes the last total. */
  lemma DeleteMiddleListing(a: int, b: int, c: int)
    ensures DeleteListing(ThreeEntries(a, b, c), 2) == Some((Entry(2, 1001, b, a + b), TwoEntries(a, c)))
  {
    var e := ThreeEntries(a, b, c);
    assert IndexOfFirst(e, 2) == Some(1);
    var kept := RemoveAt(e, 1);
    assert kept == [e[0], e[2]];
    var r := Recalc(kept);
    TwoEntriesListing(a, c);
    assert forall i :: 0 <= i < 2 ==> SameEntry(r[i], TwoEntries(a, c)[i]);
    RunningTotalsDetermineCounts(r, TwoEntries(a, c));
  }

  /** The state after deleting the middle of three entries. */
  function DbDeleted(a: int, c: int): Db
  {
    Db(map[1 := Counter(1, TestName, a + c, c)], TwoLogs(a, c), 2, 4)
  }

  lemma DeletedState(a: int, b: int, c: int)
    ensures Db3(a, b, c).(logs := UpdateRows(ThreeLogs(a, b, c) - {2}, TwoEntries(a, c)),
                          counters := Db3(a, b, c).counters[1 := Db3(a, b, c).counters[1].(currentCount := FinalCount(TwoEntries(a, c)))])
      == DbDeleted(a, c)
  {
    TwoEntriesListing(a, c);
    var e := TwoEntries(a, c);
    var w := UpdateRows(ThreeLogs(a, b, c) - {2}, e);
    assert DistinctIds(e);
    assert w[1] == e[0] && w[3] == e[1];
    assert w == TwoLogs(a, c);
  }

  /** Deleting the middle of three entries leaves the first and the last,
      the last now recording `a + c`, and a total of `a + c`. */
  lemma DeleteMiddleStep(a: int, b: int, c: int)
    ensures IsAscListing(Db3(a, b, c).logs, 1, ThreeEntries(a, b, c))
    ensures DeleteLogAndRecalculate(Db3(a, b, c), 1, 2, ThreeEntries(a, b, c)) == DbDeleted(a, c)
  {
    ThreeEntriesListing(a, b, c);
    DeleteMiddleListing(a, b, c);
    DeleteLogWrites(Db3(a, b, c), 1, 2, ThreeEntries(a, b, c), Entry(2, 1001, b, a + b), TwoEntries(a, c));
    DeletedState(a, b, c);
  }

  /** `testDeleteAndRecalculation`: increments of 10, 20 and 30 total 60;
      deleting the middle entry leaves two entries with running totals 10
      and 40 and a total of 40. */
  lemma DeleteAndRecalculationTest(asc: seq<EventLog>)
    requires IsAscListing(Db3(10, 20, 30).logs, 1, asc)
    ensures IncrementCounter(IncrementCounter(IncrementCounter(AddCounter(EmptyDb, TestName, 10),
              Snapshot(), 10, 1000), Snapshot(), 20, 1001), Snapshot(), 30, 1002) == Db3(10, 20, 30)
    ensures Db3(10, 20, 30).counters[1].currentCount == 60
    ensures |asc| == 3
    ensures var r := DeleteLogAndRecalculate(Db3(10, 20, 30), 1, asc[1].id, asc);
      && r.counters[1].currentCount == 40
      && forall after: seq<EventLog> :: IsAscListing(r.logs, 1, after) ==>
           |after| == 2 && after[0].resultingCount == 10 && after[1].resultingCount == 40
  {
    ThreeIncrementsFromScratch(10, 20, 30);
    ThreeLogsListing(10, 20, 30, asc);
    DeleteMiddleStep(10, 20, 30);
    forall after: seq<EventLog> | IsAscListing(DbDeleted(10, 30).logs, 1, after)
      ensures after == TwoEntries(10, 30)
    {
      TwoLogsListing(10, 30, after);
    }
  }

  /** `testUndoFunction`: one increment of `a` shows a total of `a`; undo
      on the re-read row brings the total back to 0 and leaves no entries. */
  lemma UndoTest(a: int, latest: Option<EventLog>)
    requires IsLatestAnswer(Db1(a).logs, 1, latest)
    ensures IncrementCounterAsWritten(AddCounter(EmptyDb, TestName, 10), Snapshot(), a, 1000) == Db1(a)
    ensures Db1(a).counters[1].currentCount == a
    ensures var r := UndoLastIncrement(Db1(a), Db1(a).counters[1], latest);
      && r.counters[1].currentCount == 0
      && forall after: seq<EventLog> :: IsAscListing(r.logs, 1, after) ==> after == []
  {
    StaleFirstStep(a);
    assert HasLogs(Db1(a).logs, 1) by {
      assert Db1(a).logs[1].counterId == 1;
    }
    assert latest == Some(Entry(1, 1000, a, a));
    var r := UndoLastIncrement(Db1(a), Db1(a).counters[1], latest);
    assert r.logs == map[];
    forall after: seq<EventLog> | IsAscListing(r.logs, 1, after)
      ensures after == []
    {
      ListingEmptyIffNoLogs(r.logs, 1, after);
    }
  }

  /** The states the source's increments reach when every call is handed
      the snapshot taken at creation: each overwrites the total with
      snapshot + amount. */
  function StaleDb2(a: int, b: int): Db
  {
    Db(map[1 := Counter(1, TestName, b, b)], map[1 := Entry(1, 1000, a, a), 2 := Entry(2, 1001, b, b)], 2, 3)
  }

  function StaleDb3(a: int, b: int, c: int): Db
  {
    Db(map[1 := Counter(1, TestName, c, c)], LogsWith(a, b, c, a, b, c), 2, 4)
  }

  lemma StaleIncrementSteps(a: int, b: int, c: int)
    ensures IncrementCounterAsWritten(Db0(), Snapshot(), a, 1000) == Db1(a)
    ensures IncrementCounterAsWritten(Db1(a), Snapshot(), b, 1001) == StaleDb2(a, b)
    ensures IncrementCounterAsWritten(StaleDb2(a, b), Snapshot(), c, 1002) == StaleDb3(a, b, c)
  {
    assert StaleDb2(a, b).logs[3 := Entry(3, 1002, c, c)] == LogsWith(a, b, c, a, b, c);
  }

  /** The first as-written increment from creation reaches `Db1`. */
  lemma StaleFirstStep(a: int)
    ensures IncrementCounterAsWritten(AddCounter(EmptyDb, TestName, 10), Snapshot(), a, 1000) == Db1(a)
  {
    AddCounterStep();
    StaleIncrementSteps(a, 0, 0);
  }

  /** Whenever the first amount is not zero, no listing of the entries the
      source's increments leave is consistent: the second entry records
      `b`, not `a + b`. */
  lemma StaleEntriesInconsistent(a: int, b: int, c: int, asc: seq<EventLog>)
    requires a != 0
    ensures !LedgerConsistent(StaleDb3(a, b, c), 1, asc)
  {
    if IsAscListing(StaleDb3(a, b, c).logs, 1, asc) {
      EntriesWithUnique(a, b, c, a, b, c, asc);
      assert asc[..2] == [asc[0]] + [asc[1]];
      SumAmountsConcat([asc[0]], [asc[1]]);
      assert SumAmounts([asc[0]]) == a by {
        assert [asc[0]][..0] == [];
      }
      assert SumAmounts([asc[1]]) == b by {
        assert [asc[1]][..0] == [];
      }
      assert asc[1].resultingCount != SumAmounts(asc[..2]);
    }
  }

  /** As written, creating the counter and handing the creation-time
      snapshot to three increments leaves the last amount `c` as the total,
      and whenever the first amount is not zero no listing of the entries
      is consistent. */
  lemma StaleSnapshotLosesIncrements(a: int, b: int, c: int, asc: seq<EventLog>)
    requires a != 0
    ensures var s := IncrementCounterAsWritten(IncrementCounterAsWritten(IncrementCounterAsWritten(
              AddCounter(EmptyDb, TestName, 10), Snapshot(), a, 1000), Snapshot(), b, 1001), Snapshot(), c, 1002);
      && s.counters[1].currentCount == c
      && !LedgerConsistent(s, 1, asc)
  {
    AddCounterStep();
    StaleIncrementSteps(a, b, c);
    StaleEntriesInconsistent(a, b, c, asc);
  }

  /** The two tests' own amounts, run through the source's increment with
      the reused snapshot: 5 where `testIncrementAndRecalculation` expects
      35, and 30 where `testDeleteAndRecalculation` expects 60. */
  lemma AsWrittenTestTotals()
    ensures IncrementCounterAsWritten(IncrementCounterAsWritten(IncrementCounterAsWritten(
              AddCounter(EmptyDb, TestName, 10), Snapshot(), 10, 1000), Snapshot(), 20, 1001), Snapshot(), 5, 1002)
              .counters[1].currentCount == 5
    ensures IncrementCounterAsWritten(IncrementCounterAsWritten(IncrementCounterAsWritten(
              AddCounter(EmptyDb, TestName, 10), Snapshot(), 10, 1000), Snapshot(), 20, 1001), Snapshot(), 30, 1002)
              .counters[1].currentCount == 30
  {
    StaleSnapshotLosesIncrements(10, 20, 5, []);
    StaleSnapshotLosesIncrements(10, 20, 30, []);
  }

  /** Two increments of `a` and `b` stamped in the same millisecond. */
  function TieDb(a: int, b: int): Db
  {
    Db(map[1 := Counter(1, TestName, a + b, b)],
       map[1 := Entry(1, 1000, a, a), 2 := Entry(2, 1000, b, a + b)], 2, 3)
  }

  /** With tied timestamps the latest-entry query may answer with the first
      entry, and undoing that one leaves the second entry recording the old
      running total, so the counter can no longer be consistent with any
      listing. */
  lemma UndoWithTiedTimestamps(a: int, b: int, asc: seq<EventLog>)
    requires a != 0
    ensures LedgerConsistent(TieDb(a, b), 1, [Entry(1, 1000, a, a), Entry(2, 1000, b, a + b)])
    ensures IsLatestAnswer(TieDb(a, b).logs, 1, Some(Entry(1, 1000, a, a)))
    ensures !LedgerConsistent(UndoLastIncrement(TieDb(a, b), TieDb(a, b).counters[1], Some(Entry(1, 1000, a, a))), 1, asc)
  {
    var db := TieDb(a, b);
    var e := [Entry(1, 1000, a, a), Entry(2, 1000, b, a + b)];
    assert IdSet(e) == {1, 2} by {
      assert e[0].id == 1 && e[1].id == 2;
    }
    assert SumAmounts(e[..1]) == a by {
      assert e[..1][..0] == [];
    }
    assert SumAmounts(e[..2]) == a + b by {
      assert e[..2][..1] == e[..1];
    }
    assert IsLatestAnswer(db.logs, 1, Some(Entry(1, 1000, a, a)));
    var r := UndoLastIncrement(db, db.counters[1], Some(Entry(1, 1000, a, a)));
    assert r.logs == map[2 := Entry(2, 1000, b, a + b)];
    if IsAscListing(r.logs, 1, asc) {
      ListingOfOne(r.logs, 1, asc, Entry(2, 1000, b, a + b));
      assert asc[..1] == asc;
      assert SumAmounts(asc) == b by {
        assert asc[..0] == [];
      }
    }
  }

  /** The tied entries of `TieDb` listed second-first, which the ascending
      query may also answer. */
  function TieSwapped(a: int, b: int): seq<EventLog>
  {
    [Entry(2, 1000, b, a + b), Entry(1, 1000, a, a)]
  }

  /** The same entries with running totals recomputed in the swapped order. */
  function TieRenumbered(a: int, b: int): seq<EventLog>
  {
    [Entry(2, 1000, b, b), Entry(1, 1000, a, a + b)]
  }

  lemma TieSwappedListing(a: int, b: int)
    ensures IsAscListing(TieDb(a, b).logs, 1, TieSwapped(a, b))
  {
    var e := TieSwapped(a, b);
    assert IdSet(e) == {1, 2} by {
      assert e[0].id == 2 && e[1].id == 1;
    }
  }

  /** Amending entry 1 of the swapped listing to its own values only
      recomputes the running totals in that order. */
  lemma TieSwappedRecalculated(a: int, b: int)
    ensures UpdateListing(TieSwapped(a, b), 1, a, 1000) == Some(TieRenumbered(a, b))
  {
    var e := TieSwapped(a, b);
    assert IndexOfFirst(e, 1) == Some(1);
    assert EditAt(e, 1, a, 1000) == e;
    SortOfSortedIsIdentity(e);
    TieSwappedTotals(a, b);
  }

  lemma TieSwappedTotals(a: int, b: int)
    ensures Recalc(TieSwapped(a, b)) == TieRenumbered(a, b)
  {
    var e := TieSwapped(a, b);
    var r := Recalc(e);
    assert SameEntry(r[0], e[0]) && SameEntry(r[1], e[1]);
    assert SumAmounts(r[..1]) == b by {
      assert r[..1][..0] == [];
    }
    assert SumAmounts(r[..2]) == a + b by {
      assert r[..2][..1] == r[..1];
    }
    assert r[0] == Entry(2, 1000, b, b);
    assert r[1] == Entry(1, 1000, a, a + b);
  }

  /** The tied entries listed first-first are consistent with the total. */
  lemma TieConsistent(a: int, b: int)
    ensures LedgerConsistent(TieDb(a, b), 1, [Entry(1, 1000, a, a), Entry(2, 1000, b, a + b)])
  {
    var e := [Entry(1, 1000, a, a), Entry(2, 1000, b, a + b)];
    assert IdSet(e) == {1, 2} by {
      assert e[0].id == 1 && e[1].id == 2;
    }
    assert SumAmounts(e[..1]) == a by {
      assert e[..1][..0] == [];
    }
    assert SumAmounts(e[..2]) == a + b by {
      assert e[..2][..1] == e[..1];
    }
  }

  lemma TieRenumberedRows(a: int, b: int)
    ensures UpdateRows(TieDb(a, b).logs, TieRenumbered(a, b)) == map[1 := Entry(1, 1000, a, a + b), 2 := Entry(2, 1000, b, b)]
  {
    var e := TieRenumbered(a, b);
    var w := UpdateRows(TieDb(a, b).logs, e);
    assert DistinctIds(e);
    assert w[2] == e[0] && w[1] == e[1];
  }

  /** The amendment of entry 1 over the swapped listing, unfolded. */
  lemma TieAmendWrites(a: int, b: int)
    ensures IsAscListing(TieDb(a, b).logs, 1, TieSwapped(a, b))
    ensures UpdateLogAndRecalculate(TieDb(a, b), 1, 1, a, 1000, TieSwapped(a, b))
      == TieDb(a, b).(logs := UpdateRows(TieDb(a, b).logs, TieRenumbered(a, b)),
                      counters := TieDb(a, b).counters[1 := TieDb(a, b).counters[1].(currentCount := FinalCount(TieRenumbered(a, b)))])
  {
    TieSwappedListing(a, b);
    TieSwappedRecalculated(a, b);
    UpdateLogWrites(TieDb(a, b), 1, 1, a, 1000, TieSwapped(a, b), TieRenumbered(a, b));
  }

  lemma TieRenumberedState(a: int, b: int, r: Db)
    requires r == TieDb(a, b).(logs := UpdateRows(TieDb(a, b).logs, TieRenumbered(a, b)),
                               counters := TieDb(a, b).counters[1 := TieDb(a, b).counters[1].(currentCount := FinalCount(TieRenumbered(a, b)))])
    ensures r.counters == TieDb(a, b).counters
    ensures r.logs == map[1 := Entry(1, 1000, a, a + b), 2 := Entry(2, 1000, b, b)]
  {
    TieRenumberedRows(a, b);
    assert FinalCount(TieRenumbered(a, b)) == a + b;
  }

  /** With tied timestamps the ascending query may list the later-inserted
      entry first. Amending an entry to its own amount and timestamp then
      renumbers the tied entries in that order, so the amendment is not the
      identity although the counter was consistent. */
  lemma UpdateWithTiedTimestamps(a: int, b: int)
    ensures LedgerConsistent(TieDb(a, b), 1, [Entry(1, 1000, a, a), Entry(2, 1000, b, a + b)])
    ensures IsAscListing(TieDb(a, b).logs, 1, TieSwapped(a, b))
    ensures var r := UpdateLogAndRecalculate(TieDb(a, b), 1, 1, TieDb(a, b).logs[1].amountChanged,
                                             TieDb(a, b).logs[1].timestamp, TieSwapped(a, b));
      && r.counters == TieDb(a, b).counters
      && r.logs == map[1 := Entry(1, 1000, a, a + b), 2 := Entry(2, 1000, b, b)]
      && (a != 0 ==> r != TieDb(a, b))
  {
    TieConsistent(a, b);
    assert TieDb(a, b).logs[1] == Entry(1, 1000, a, a);
    TieAmendWrites(a, b);
    TieRenumberedState(a, b, UpdateLogAndRecalculate(TieDb(a, b), 1, 1, a, 1000, TieSwapped(a, b)));
  }
}

=== FILE: store.dfy ===
/** The two tables behind the repository, keyed by primary key, and the
    contracts of the DAO queries and writes the repository relies on. */
module Store {
  import opened Optional
  import opened Entities
  import opened Ledger

  /** Database state: both tables and the next auto-generated id of each
      (`autoGenerate = true` hands out increasing ids from 1, never reused). */
  datatype Db = Db(
    counters: map<int, Counter>,
    logs: map<int, EventLog>,
    nextCounterId: int,
    nextLogId: int
  )

  /** A freshly created database. */
  const EmptyDb: Db := Db(map[], map[], 1, 1)

  /** Rows sit under their own id, ids already handed out are below the
      next one, and no entry names a counter id not yet handed out. */
  predicate WellFormed(db: Db)
  {
    && 0 < db.nextCounterId && 0 < db.nextLogId
    && (forall id :: id in db.counters ==> db.counters[id].id == id && 0 < id < db.nextCounterId)
    && (forall id :: id in db.logs ==> db.logs[id].id == id && 0 < id < db.nextLogId)
    && (forall id :: id in db.logs ==> db.logs[id].counterId < db.nextCounterId)
  }

  /** Whether the counter owns at least one entry. */
  predicate HasLogs(logs: map<int, EventLog>, counterId: int)
  {
    exists id :: id in logs && logs[id].counterId == counterId
  }

  /** A possible answer of `getAllLogsForCounterAsc(counterId)`: every row of
      the counter exactly once, ordered by ascending timestamp. SQL leaves
      the order of equal timestamps open, so several answers can exist. */
  predicate IsAscListing(logs: map<int, EventLog>, counterId: int, asc: seq<EventLog>)
  {
    && (forall i :: 0 <= i < |asc| ==> asc[i].id in logs && logs[asc[i].id] == asc[i])
    && (forall i :: 0 <= i < |asc| ==> asc[i].counterId == counterId)
    && (forall id :: id in logs && logs[id].counterId == counterId ==> id in IdSet(asc))
    && DistinctIds(asc)
    && SortedByTime(asc)
  }

  /** A possible answer of `getLatestLogForCounter(counterId)`: a row of the
      counter with the greatest timestamp (ties open), or none when the
      counter has no rows. */
  predicate IsLatestAnswer(logs: map<int, EventLog>, counterId: int, latest: Option<EventLog>)
  {
    match latest
    case None => !HasLogs(logs, counterId)
    case Some(l) =>
      && l.id in logs && logs[l.id] == l && l.counterId == counterId
      && forall id :: id in logs && logs[id].counterId == counterId ==> logs[id].timestamp <= l.timestamp
  }

  /** `@Update` of one counter row: replaces the row with the same id, and
      does nothing when there is none. */
  function UpdateRow(counters: map<int, Counter>, c: Counter): (r: map<int, Counter>)
    ensures r.Keys == counters.Keys
    ensures c.id in counters ==> r[c.id] == c
    ensures forall id :: id in counters && id != c.id ==> r[id] == counters[id]
  {
    if c.id in counters then counters[c.id := c] else counters
  }

  /** `@Update` of a list of entries: each replaces the row with its id;
      rows not present are skipped. */
  function UpdateRows(logs: map<int, EventLog>, rows: seq<EventLog>): (r: map<int, EventLog>)
    ensures r.Keys == logs.Keys
    ensures forall id :: id in logs && id !in IdSet(rows) ==> r[id] == logs[id]
    ensures DistinctIds(rows) ==> forall j :: 0 <= j < |rows| && rows[j].id in logs ==> r[rows[j].id] == rows[j]
  {
    if |rows| == 0 then logs
    else
      var front := rows[..|rows| - 1];
      var row := rows[|rows| - 1];
      var before := UpdateRows(logs, front);
      assert IdSet(rows) == IdSet(front) + {row.id} by {
        assert rows == front + [row];
        forall id | id in IdSet(rows) ensures id in IdSet(front) + {row.id} {
          var i :| 0 <= i < |rows| && rows[i].id == id;
          if i < |front| {
            assert front[i].id == id;
          }
        }
        forall id | id in IdSet(front) ensures id in IdSet(rows) {
          var i :| 0 <= i < |front| && front[i].id == id;
          assert rows[i].id == id;
        }
      }
      assert DistinctIds(rows) ==> DistinctIds(front) && row.id !in IdSet(front) by {
        if DistinctIds(rows) {
          forall i | 0 <= i < |front| ensures front[i].id != row.id {
            assert rows[i] == front[i];
          }
        }
      }
      if row.id in before then before[row.id := row] else before
  }

  /** The consistency invariant of one counter, witnessed by a listing of
      its rows in ascending timestamp order: each `resultingCount` is the
      prefix sum of the amounts, and the counter shows the last one (0 when
      it has no entries). */
  predicate LedgerConsistent(db: Db, counterId: int, asc: seq<EventLog>)
  {
    && IsAscListing(db.logs, counterId, asc)
    && RunningTotalsHold(asc)
    && counterId in db.counters
    && db.counters[counterId].currentCount == FinalCount(asc)
  }

  /** The counter's rows are the same in both tables. */
  predicate SameRowsOf(logs: map<int, EventLog>, logs': map<int, EventLog>, counterId: int)
  {
    && (forall id :: id in logs && logs[id].counterId == counterId ==> id in logs' && logs'[id] == logs[id])
    && (forall id :: id in logs' && logs'[id].counterId == counterId ==> id in logs && logs[id] == logs'[id])
  }

  /** A listing only depends on the counter's own rows. */
  lemma ListingFrame(logs: map<int, EventLog>, logs': map<int, EventLog>, counterId: int, asc: seq<EventLog>)
    requires SameRowsOf(logs, logs', counterId)
    requires IsAscListing(logs, counterId, asc)
    ensures IsAscListing(logs', counterId, asc)
  {
    forall id | id in logs' && logs'[id].counterId == counterId
      ensures id in IdSet(asc)
    {
      assert id in logs && logs[id] == logs'[id];
    }
  }

  /** An operation that leaves a counter's row and its entries alone keeps
      that counter consistent. */
  lemma ConsistentFrame(db: Db, db': Db, counterId: int, asc: seq<EventLog>)
    requires LedgerConsistent(db, counterId, asc)
    requires SameRowsOf(db.logs, db'.logs, counterId)
    requires counterId in db'.counters && db'.counters[counterId] == db.counters[counterId]
    ensures LedgerConsistent(db', counterId, asc)
  {
    ListingFrame(db.logs, db'.logs, counterId, asc);
  }

  /** The ascending query always has an answer: the rows of any table can
      be listed in timestamp order. */
  lemma AscListingExists(logs: map<int, EventLog>, counterId: int)
    requires forall id :: id in logs ==> logs[id].id == id
    ensures exists asc :: IsAscListing(logs, counterId, asc)
    decreases logs.Keys
  {
    if k :| k in logs {
      AscListingExists(logs - {k}, counterId);
      var asc' :| IsAscListing(logs - {k}, counterId, asc');
      ListingAddRow(logs, counterId, k, asc');
    } else {
      assert IsAscListing(logs, counterId, []);
    }
  }

  /** A listing of all rows but `k`, extended by row `k` when it belongs to
      the counter. */
  lemma ListingAddRow(logs: map<int, EventLog>, counterId: int, k: int, asc': seq<EventLog>)
    requires k in logs && logs[k].id == k
    requires IsAscListing(logs - {k}, counterId, asc')
    ensures IsAscListing(logs, counterId, if logs[k].counterId == counterId then InsertByTime(logs[k], asc') else asc')
  {
    if logs[k].counterId == counterId {
      ListingAddOwnRow(logs, counterId, k, asc');
    } else {
      ListingAddOtherRow(logs, counterId, k, asc');
    }
  }

  /** A row of another counter does not change the listing. */
  lemma ListingAddOtherRow(logs: map<int, EventLog>, counterId: int, k: int, asc': seq<EventLog>)
    requires k in logs && logs[k].counterId != counterId
    requires IsAscListing(logs - {k}, counterId, asc')
    ensures IsAscListing(logs, counterId, asc')
  {
    var rest := logs - {k};
    forall i | 0 <= i < |asc'|
      ensures asc'[i].id in logs && logs[asc'[i].id] == asc'[i]
    {
      assert asc'[i].id in rest;
    }
    forall id | id in logs && logs[id].counterId == counterId
      ensures id in IdSet(asc')
    {
      assert id in rest;
    }
  }

  /** A row of the counter goes into the listing at its timestamp. */
  lemma ListingAddOwnRow(logs: map<int, EventLog>, counterId: int, k: int, asc': seq<EventLog>)
    requires k in logs && logs[k].id == k && logs[k].counterId == counterId
    requires IsAscListing(logs - {k}, counterId, asc')
    ensures IsAscListing(logs, counterId, InsertByTime(logs[k], asc'))
  {
    var rest := logs - {k};
    var x := logs[k];
    var asc := InsertByTime(x, asc');
    forall j | 0 <= j < |asc'|
      ensures asc'[j].id != k
    {
      assert asc'[j].id in rest;
    }
    InsertByTimeIds(x, asc');
    InsertByTimeMembers(x, asc');
    forall i | 0 <= i < |asc|
      ensures asc[i].id in logs && logs[asc[i].id] == asc[i] && asc[i].counterId == counterId
    {
      if asc[i] != x {
        var j :| 0 <= j < |asc'| && asc'[j] == asc[i];
        assert asc'[j].id in rest;
      }
    }
    forall id | id in logs && logs[id].counterId == counterId
      ensures id in IdSet(asc)
    {
      if id != k {
        assert id in rest;
      }
    }
  }



  /** The ids a listing holds are exactly the ids of the counter's rows. */
  lemma ListingIds(logs: map<int, EventLog>, counterId: int, asc: seq<EventLog>)
    requires IsAscListing(logs, counterId, asc)
    ensures forall id :: id in IdSet(asc) <==> id in logs && logs[id].counterId == counterId
  {
    forall id | id in IdSet(asc)
      ensures id in logs && logs[id].counterId == counterId
    {
      var i :| 0 <= i < |asc| && asc[i].id == id;
    }
  }

  /** Inserting a row stamped no earlier than any of the counter's rows
      extends the listing at its end. */
  lemma ListingAppend(logs: map<int, EventLog>, counterId: int, asc: seq<EventLog>, x: EventLog)
    requires IsAscListing(logs, counterId, asc)
    requires x.id !in logs && x.counterId == counterId
    requires forall i :: 0 <= i < |asc| ==> asc[i].timestamp <= x.timestamp
    ensures IsAscListing(logs[x.id := x], counterId, asc + [x])
  {
    var logs' := logs[x.id := x];
    var asc' := asc + [x];
    forall i | 0 <= i < |asc'|
      ensures asc'[i].id in logs' && logs'[asc'[i].id] == asc'[i] && asc'[i].counterId == counterId
    {
      if i < |asc| {
        assert asc'[i] == asc[i];
      }
    }
    forall id | id in logs' && logs'[id].counterId == counterId
      ensures id in IdSet(asc')
    {
      if id == x.id {
        assert asc'[|asc|].id == id;
      } else {
        assert id in IdSet(asc);
        var i :| 0 <= i < |asc| && asc[i].id == id;
        assert asc'[i].id == id;
      }
    }
    forall i, j | 0 <= i < j < |asc'|
      ensures asc'[i].id != asc'[j].id && asc'[i].timestamp <= asc'[j].timestamp
    {
      if j == |asc| {
        assert asc'[i] == asc[i];
      } else {
        assert asc'[i] == asc[i] && asc'[j] == asc[j];
      }
    }
  }

  /** Deleting the last row of a listing leaves the rest as the listing. */
  lemma ListingDropLast(logs: map<int, EventLog>, counterId: int, asc: seq<EventLog>)
    requires IsAscListing(logs, counterId, asc)
    requires |asc| > 0
    ensures IsAscListing(logs - {asc[|asc| - 1].id}, counterId, asc[..|asc| - 1])
  {
    var n := |asc|;
    var logs' := logs - {asc[n - 1].id};
    var p := asc[..n - 1];
    forall i | 0 <= i < |p|
      ensures p[i].id in logs' && logs'[p[i].id] == p[i]
    {
      assert p[i] == asc[i];
    }
    forall id | id in logs' && logs'[id].counterId == counterId
      ensures id in IdSet(p)
    {
      var i :| 0 <= i < n && asc[i].id == id;
      assert p[i].id == id;
    }
  }

  /** Writing back a complete, sorted, duplicate-free list of the counter's
      rows makes that list the counter's listing. */
  lemma ListingRewritten(logs: map<int, EventLog>, counterId: int, rows: seq<EventLog>)
    requires forall id :: id in logs && logs[id].counterId == counterId ==> id in IdSet(rows)
    requires forall j :: 0 <= j < |rows| ==> rows[j].id in logs && rows[j].counterId == counterId
    requires DistinctIds(rows) && SortedByTime(rows)
    ensures IsAscListing(UpdateRows(logs, rows), counterId, rows)
  {
  }

  /** Writing back rows that all belong to one counter, over rows of that
      same counter, leaves every other counter's rows alone. */
  lemma RewriteFrame(logs: map<int, EventLog>, counterId: int, rows: seq<EventLog>)
    requires forall j :: 0 <= j < |rows| ==> rows[j].counterId == counterId
    requires forall id :: id in IdSet(rows) && id in logs ==> logs[id].counterId == counterId
    requires DistinctIds(rows)
    ensures forall c :: c != counterId ==> SameRowsOf(logs, UpdateRows(logs, rows), c)
  {
    var w := UpdateRows(logs, rows);
    forall id | id in IdSet(rows) && id in logs
      ensures logs[id].counterId == counterId && w[id].counterId == counterId
    {
      var j :| 0 <= j < |rows| && rows[j].id == id;
      assert w[id] == rows[j];
    }
  }

  /** Writing back rows exactly as stored changes nothing. */
  lemma UpdateRowsUnchanged(logs: map<int, EventLog>, rows: seq<EventLog>)
    requires forall j :: 0 <= j < |rows| ==> rows[j].id in logs && logs[rows[j].id] == rows[j]
    requires DistinctIds(rows)
    ensures UpdateRows(logs, rows) == logs
  {
    var w := UpdateRows(logs, rows);
    forall id | id in logs
      ensures w[id] == logs[id]
    {
      if id in IdSet(rows) {
        var j :| 0 <= j < |rows| && rows[j].id == id;
      }
    }
  }

  /** Deleting one row of a counter leaves every other counter's rows alone. */
  lemma RemoveRowFrame(logs: map<int, EventLog>, logId: int, counterId: int)
    requires logId in logs && logs[logId].counterId == counterId
    ensures forall c :: c != counterId ==> SameRowsOf(logs, logs - {logId}, c)
  {
  }

  /** Having the same rows of a counter is transitive. */
  lemma SameRowsTrans(a: map<int, EventLog>, b: map<int, EventLog>, c: map<int, EventLog>, counterId: int)
    requires SameRowsOf(a, b, counterId) && SameRowsOf(b, c, counterId)
    ensures SameRowsOf(a, c, counterId)
  {
  }

  /** No two rows of the counter share a timestamp. */
  predicate DistinctTimestamps(logs: map<int, EventLog>, counterId: int)
  {
    forall i, j :: i in logs && j in logs && i != j && logs[i].counterId == counterId && logs[j].counterId == counterId
      ==> logs[i].timestamp != logs[j].timestamp
  }

  /** With distinct timestamps the ascending query has exactly one answer. */
  lemma ListingUnique(logs: map<int, EventLog>, counterId: int, a: seq<EventLog>, b: seq<EventLog>)
    requires DistinctTimestamps(logs, counterId)
    requires IsAscListing(logs, counterId, a) && IsAscListing(logs, counterId, b)
    ensures a == b
  {
    ListingStrict(logs, counterId, a);
    ListingStrict(logs, counterId, b);
    ListingIds(logs, counterId, a);
    ListingIds(logs, counterId, b);
    forall x
      ensures x in a <==> x in b
    {
      if x in a {
        var i :| 0 <= i < |a| && a[i] == x;
        assert x.id in IdSet(b);
        var j :| 0 <= j < |b| && b[j].id == x.id;
      }
      if x in b {
        var j :| 0 <= j < |b| && b[j] == x;
        assert x.id in IdSet(a);
        var i :| 0 <= i < |a| && a[i].id == x.id;
      }
    }
    StrictlySortedUnique(a, b);
  }

  /** A listing of rows with distinct timestamps is strictly increasing. */
  lemma ListingStrict(logs: map<int, EventLog>, counterId: int, a: seq<EventLog>)
    requires DistinctTimestamps(logs, counterId)
    requires IsAscListing(logs, counterId, a)
    ensures StrictlySortedByTime(a)
  {
    forall i, j | 0 <= i < j < |a|
      ensures a[i].timestamp < a[j].timestamp
    {
      assert a[i].id != a[j].id;
      assert logs[a[i].id] == a[i] && logs[a[j].id] == a[j];
    }
  }

  /** A counter with entries has a non-empty listing; one without has the
      empty listing. */
  lemma ListingEmptyIffNoLogs(logs: map<int, EventLog>, counterId: int, asc: seq<EventLog>)
    requires IsAscListing(logs, counterId, asc)
    ensures asc == [] <==> !HasLogs(logs, counterId)
  {
    ListingIds(logs, counterId, asc);
    assert |asc| > 0 ==> asc[0].id in logs && logs[asc[0].id].counterId == counterId;
    if HasLogs(logs, counterId) {
      var id :| id in logs && logs[id].counterId == counterId;
      assert id in IdSet(asc);
    }
  }

  /** A counter with a single row lists as that row. */
  lemma ListingOfOne(logs: map<int, EventLog>, counterId: int, asc: seq<EventLog>, x: EventLog)
    requires IsAscListing(logs, counterId, asc)
    requires logs == map[x.id := x] && x.counterId == counterId
    ensures asc == [x]
  {
    ListingIds(logs, counterId, asc);
    assert IdSet(asc) == {x.id};
    DistinctIdsCount(asc);
    assert asc[0].id == x.id;
  }

  /** Every table admits an answer of the latest-entry query for every
      counter: the last entry of an ascending listing, or none. */
  lemma LatestAnswerExists(logs: map<int, EventLog>, counterId: int)
    requires forall id :: id in logs ==> logs[id].id == id
    ensures exists l :: IsLatestAnswer(logs, counterId, l)
  {
    AscListingExists(logs, counterId);
    var asc: seq<EventLog> :| IsAscListing(logs, counterId, asc);
    ListingEmptyIffNoLogs(logs, counterId, asc);
    ListingIds(logs, counterId, asc);
    if |asc| == 0 {
      assert IsLatestAnswer(logs, counterId, None);
    } else {
      var last := asc[|asc| - 1];
      forall id | id in logs && logs[id].counterId == counterId
        ensures logs[id].timestamp <= last.timestamp
      {
        assert id in IdSet(asc);
        var i :| 0 <= i < |asc| && asc[i].id == id;
        assert logs[id] == asc[i];
      }
      assert IsLatestAnswer(logs, counterId, Some(last));
    }
  }
}
